=== FILE: README.md ===
# Flight-booking gateway: a Dafny model

This project models the gateway that sits between clients and ten airline
servers. The gateway answers two routes. A search (`GET`) asks every airline
for a flight on a route and date. It keeps each flight that an airline's reply
decodes to, rounds prices to whole cents, and returns the list ordered by
price. A reservation (`POST`) must carry an authentication cookie and a JSON
body. It is routed to the one airline named in the body, and the airline's
confirmation number is relayed as text.

The model has one Dafny module per source class, plus small modules for the
pieces of the Java library that decisions depend on:

- `Flights`: `model/Flight.java`. It covers cent rounding, the setters and `compareTo`.
- `FlightSort`: the `flights.sort(Collections.reverseOrder())` call, modelled as a stable insertion sort.
- `AirlinesService`: `services/RealAirlinesService.java`. It covers the airline directory, search aggregation and reservation routing.
- `Authentication`: `services/AuthenticationService.java`.
- `Responses`: the `sendResponse` helper that both handlers carry.
- `HttpExchange`: request headers and the outcome of a `handle` call.
- `SearchHandler`: `handlers/FlightSearchHandler.java`.
- `ReservationHandler`: `handlers/FlightReservationHandler.java`.
- `JavaText`, `JavaNumbers` and `JavaCollections`: the library behaviour the source relies on:
  - `isBlank`, `endsWith`, `length`, `indexOf` and `equalsIgnoreCase`;
  - `Long.parseLong` and `String.valueOf(long)`;
  - `Collectors.toMap`.

Every outside effect is a function parameter, so each property holds for all
possible behaviours. The parameters are:

- `backend`: the network, meaning what each airline answers to a request, or a transport failure.
- `parse`: the Jackson decoding of a flight.
- `toJson`: the Jackson encoding of a reservation request.
- `parseRequest`: the decoding of a reservation body.
- `parseDate`: `LocalDate.of` over the day, month and year parameters.
- `service`: the airlines service a handler calls.

An exception that escapes `handle` is modelled as `Handled(None, _)`: no reply is written.

Sort direction: `Flight.compareTo` puts the dearer flight first. The gateway
sorts with `Collections.reverseOrder()`, so results go out **cheapest
first** (`FlightSort.SortedMeansCheapestFirst`, `AirlinesService.FindAllFlight`).

## Model

| member | source | states |
|---|---|---|
| Flights.RoundToCents | src/main/java/model/Flight.java:20 | The stored price is a whole number of cents within half a cent of the given price. A whole-cent price is stored unchanged. |
| Flights.RoundToCentsNearest | src/main/java/model/Flight.java:47 | No whole-cent price is closer to the input than the rounded one. |
| Flights.RoundToCentsIdempotent | src/main/java/model/Flight.java:47 | Rounding an already rounded price changes nothing. |
| Flights.NewFlight | src/main/java/model/Flight.java:16-24 | The constructor stores every field as given, except the price, which is rounded to cents. So every constructed flight is well formed. |
| Flights.SetPriceUSD | src/main/java/model/Flight.java:46-48 | setPriceUSD stores the rounded price and leaves every other field as it was. |
| Flights.SetPriceUSDIdempotent | src/main/java/model/Flight.java:46-48 | Setting a well-formed flight's own price again gives back the same flight. |
| Flights.SetId | src/main/java/model/Flight.java:62-64 | setId changes the id and nothing else. |
| Flights.SetAirlineName | src/main/java/model/Flight.java:38-40 | setAirlineName changes the airline name and nothing else. |
| Flights.SetNumberOfFreeBags | src/main/java/model/Flight.java:54-56 | setNumberOfFreeBags changes the bag count and nothing else. |
| Flights.SetNumberOfAvailableSeats | src/main/java/model/Flight.java:70-72 | setNumberOfAvailableSeats changes the seat count and nothing else. |
| Flights.SetDate | src/main/java/model/Flight.java:30-32 | setDate changes the date and nothing else. |
| Flights.SettersPreserveWellFormed | src/main/java/model/Flight.java:30-72 | The setters other than setPriceUSD keep a whole-cent price whole-cent. |
| Flights.CompareTo | src/main/java/model/Flight.java:75-83 | The result is 1 exactly when this flight is cheaper, -1 exactly when it is dearer, and 0 exactly when the prices are equal. |
| Flights.CompareToAntisymmetric | src/main/java/model/Flight.java:75-83 | Swapping the two flights negates the result, as the Comparable contract requires. |
| Flights.CompareToTransitive | src/main/java/model/Flight.java:75-83 | The order is transitive, and flights that compare equal compare alike with every third flight. |
| Flights.CompareToPriceOnly | src/main/java/model/Flight.java:75-83 | Only the price decides the comparison. |
| FlightSort.ReverseOrder | src/main/java/services/RealAirlinesService.java:84 | The reversed comparator is negative exactly when the first flight is cheaper, and positive exactly when it is dearer. |
| FlightSort.SortedMeansCheapestFirst | src/main/java/services/RealAirlinesService.java:84 | A list is ordered for the reversed comparator exactly when its prices never decrease, which is exactly when natural compareTo is never negative along it. |
| FlightSort.Insert | src/main/java/services/RealAirlinesService.java:84 | One insertion step adds exactly the inserted flight to the list's contents. |
| FlightSort.InsertSorted | src/main/java/services/RealAirlinesService.java:84 | Inserting into a sorted list keeps it sorted. |
| FlightSort.Sort | src/main/java/services/RealAirlinesService.java:84 | The result is sorted cheapest first and is a permutation of the input. |
| FlightSort.InsertTies | src/main/java/services/RealAirlinesService.java:84 | An inserted flight lands ahead of the flights of equal price that were already there. |
| FlightSort.SortStable | src/main/java/services/RealAirlinesService.java:84 | Flights of equal price keep their input order, as List.sort guarantees. |
| FlightSort.SortedTiesUnique | src/main/java/services/RealAirlinesService.java:84 | Two sorted lists with the same equal-price subsequences are the same list. |
| FlightSort.SortIsTheStableSort | src/main/java/services/RealAirlinesService.java:84 | Any sorted list that keeps the input's ties in order equals Sort of the input. So the model gives the only answer a stable sort can give. |
| AirlinesService.DeclarationOrderEnumerates | src/main/java/services/RealAirlinesService.java:24-34 | The ten airline and address pairs, in declaration order, list the directory without repeating a name. |
| AirlinesService.DirectoryHasTenAirlines | src/main/java/services/RealAirlinesService.java:24-34 | The directory holds ten airlines, and any enumeration of it has ten entries. |
| AirlinesService.BuildSearchRequest | src/main/java/services/RealAirlinesService.java:62-72 | No request is built exactly when a non-blank referer is given that setHeader refuses as a header value. Otherwise the request goes to the airline's address on /show_flights and carries the route and date. Its only headers are one `Accept: application/json` and, exactly when a non-blank referer was given, one Referer with that value. |
| AirlinesService.RefererExamples | src/main/java/services/RealAirlinesService.java:70-71 | A referer with a control character, or with a character above U+00FF, is refused; a printable ASCII URL is set. |
| AirlinesService.ValidHeaderChar | src/main/java/services/RealAirlinesService.java:71 | setHeader accepts printable ASCII and tab in a value, and refuses every other control character, DEL and anything above U+00FF. |
| AirlinesService.ValidHeaderValue | src/main/java/services/RealAirlinesService.java:71 | A value is accepted exactly when none of its characters is a control character other than tab, DEL, or above U+00FF. So an accepted value stays within U+00FF, and printable ASCII is always accepted. |
| AirlinesService.ForwardsReferer | src/main/java/services/RealAirlinesService.java:70 | The referer is set exactly when it is present and holds some character that is not white space. |
| AirlinesService.RefererRejected | src/main/java/services/RealAirlinesService.java:70-71 | setHeader throws exactly when the referer is to be set and holds a control character other than tab, DEL, or a character above U+00FF. |
| AirlinesService.FromJson | src/main/java/services/RealAirlinesService.java:154 | A decoded flight keeps every field of the JSON except the price, which goes through setPriceUSD and is rounded to cents, so it is well formed. |
| AirlinesService.ConvertResponseBodyToFlight | src/main/java/services/RealAirlinesService.java:149-159 | A blank body and a body that does not decode give no flight. Otherwise the result is the decoded flight with its price rounded to cents. |
| AirlinesService.Attempt | src/main/java/services/RealAirlinesService.java:61-82 | A refused referer makes the airline contribute nothing, and so does a transport failure. Otherwise the airline contributes whatever its reply body converts to, whatever the status. |
| AirlinesService.Collect | src/main/java/services/RealAirlinesService.java:59-83 | The collected list has at most one flight per airline. Each flight is well formed, and the list is empty when every airline fails. |
| AirlinesService.CollectMembers | src/main/java/services/RealAirlinesService.java:59-83 | The collected list holds exactly the flights that some airline contributed. |
| AirlinesService.CollectPrefix | src/main/java/services/RealAirlinesService.java:76-78 | Each turn of the loop appends the current airline's flight, if it produced one, to what the earlier airlines gave. |
| AirlinesService.CollectAppend | src/main/java/services/RealAirlinesService.java:59-83 | Collecting over two runs of airlines is the concatenation of the two collections. |
| AirlinesService.FailedAirlineContributesNothing | src/main/java/services/RealAirlinesService.java:80-82 | An airline whose attempt fails is skipped, and the rest are still asked. |
| AirlinesService.FindAllFlight | src/main/java/services/RealAirlinesService.java:57-86 | The result is cheapest first, a permutation of what the airlines contributed, well formed, and empty when every airline fails. |
| AirlinesService.FindAllFlightKeepsTies | src/main/java/services/RealAirlinesService.java:84 | Equal-price flights appear in the order the airlines were asked. |
| AirlinesService.FindAllFlightAtMostTen | src/main/java/services/RealAirlinesService.java:24-34 | A search over the real directory returns at most ten flights. |
| AirlinesService.RejectedRefererFindsNothing | src/main/java/services/RealAirlinesService.java:70-84 | When setHeader refuses the referer, every airline fails and the search returns the empty list. |
| AirlinesService.SearchOne | src/main/java/services/RealAirlinesService.java:61-82 | One turn of the loop builds the request, sends it only if it was built, and yields exactly that airline's contribution. |
| AirlinesService.SearchAllAirlines | src/main/java/services/RealAirlinesService.java:57-86 | The loop returns the sorted aggregate. With an acceptable referer it sends one request to each airline in directory order. With a refused referer it sends nothing and returns the empty list. |
| AirlinesService.BuildReserveRequest | src/main/java/services/RealAirlinesService.java:99-105 | The reservation request goes to /book_flight and carries the payload. Its headers are exactly two: `Content-Type: application/json` and `Accept: text/plain; charset=UTF-8`. |
| AirlinesService.ConfirmationOf | src/main/java/services/RealAirlinesService.java:106-115 | A 200 reply whose body parses as a long gives that long. A transport failure, any other status or an unparsable body gives -1. |
| AirlinesService.ReserveFlight | src/main/java/services/RealAirlinesService.java:94-116 | An unknown airline or an unencodable request gives -1 and contacts nobody. Otherwise exactly one request goes out: the reservation request for the named airline's address with the encoded payload, headers included. The airline's reply to it decides the result. |
| AirlinesService.ReserveReturnsBody | src/main/java/services/RealAirlinesService.java:108-109 | When the airline answers 200 with the decimal text of a long, that long is returned, including zero and negatives. |
| JavaNumbers.ParseLong | src/main/java/services/RealAirlinesService.java:109 | Only an optional sign followed by ASCII digits is accepted. Unsigned or plus-signed digits give their value and a minus sign its negation, exactly when that value fits in a long; otherwise nothing. The empty string and a bare sign are rejected. |
| JavaNumbers.NonDigitRejected | src/main/java/services/RealAirlinesService.java:109 | A non-digit after the first character is rejected, so a body "123\n" is not a confirmation number. |
| JavaNumbers.LeadingZeroIgnored | src/main/java/services/RealAirlinesService.java:109 | Leading zeros do not change the result, with or without a minus sign. |
| JavaNumbers.OverflowRejected | src/main/java/services/RealAirlinesService.java:109 | One past the largest long is rejected with or without a plus sign, and with a minus sign it is the smallest long. |
| JavaNumbers.ParseUnsigned | src/main/java/services/RealAirlinesService.java:109 | Digits without a sign parse to their value when it fits. |
| JavaNumbers.ParseNegative | src/main/java/services/RealAirlinesService.java:109 | A minus sign and digits parse to minus their value when it fits. |
| JavaNumbers.LongToString | src/main/java/handlers/FlightReservationHandler.java:92 | The text starts with '-' exactly for a negative number, and the rest is a non-empty run of digits with no leading '0' unless it is "0" itself. With ParseLongToString this fixes the text exactly. |
| JavaNumbers.NatToDigitsValue | src/main/java/handlers/FlightReservationHandler.java:92 | The digits denote the number they were made from. |
| JavaNumbers.ParseLongToString | src/main/java/handlers/FlightReservationHandler.java:92 | Parsing the decimal text of any long gives that long back. |
| JavaText.Utf16Length | src/main/java/services/AuthenticationService.java:31 | length() is the number of code points plus one for each code point outside the Basic Multilingual Plane, which UTF-16 writes as a surrogate pair. |
| JavaText.IndexOf | src/main/java/services/AuthenticationService.java:32-33 | The position found holds the character, and no earlier position does. |
| JavaText.IsWhitespace | src/main/java/services/RealAirlinesService.java:70 | The characters Character.isWhitespace accepts: the ASCII controls 9 to 13 and 28 to 31, the space, and the Unicode space, line and paragraph separators other than the no-break spaces. |
| JavaText.IsBlank | src/main/java/services/RealAirlinesService.java:70 | A string is blank when every character is white space; the empty string is blank. |
| JavaText.BlankExamples | src/main/java/handlers/FlightSearchHandler.java:48 | Tabs, line ends and the line separator are blank; a no-break space and any visible character are not. |
| JavaText.FoldCase | src/main/java/handlers/FlightSearchHandler.java:68 | ASCII capitals fold to their small letters, other ASCII characters are unchanged, the result is never an ASCII capital, and anything changed lands on a small ASCII letter. |
| JavaText.EqualsIgnoreCase | src/main/java/handlers/FlightReservationHandler.java:70 | Two strings match when they have the same length and fold to the same character at every position. |
| JavaText.GetSpellings | src/main/java/handlers/FlightSearchHandler.java:68 | A method matches GET exactly when it is one of the eight ASCII spellings of get. |
| JavaText.PostWithLongS | src/main/java/handlers/FlightReservationHandler.java:70 | A method written with a long s in place of the S matches POST, while a longer word does not. This is a property of equalsIgnoreCase only: the HTTP server decodes the request line as ISO-8859-1, so U+017F never arrives as a request method. |
| JavaCollections.ToMap | src/main/java/handlers/FlightSearchHandler.java:149-153 | The collector yields a map exactly when no key repeats. The map's keys are the pairs' keys, and it maps each key to its pair's value. |
| Authentication.SplitCookie | src/main/java/services/AuthenticationService.java:32-33 | The key has no '=' and key, '=' and value put back together give the entry, so the split is at the first '='. |
| Authentication.Retained | src/main/java/services/AuthenticationService.java:31 | An entry is kept when it contains '=' and is longer than two UTF-16 units. |
| Authentication.EntryKeys | src/main/java/services/AuthenticationService.java:31-32 | Each entry puts in, at its own position, the part before its first '=' when it is kept, and nothing otherwise. |
| Authentication.RepeatsKeyMeans | src/main/java/services/AuthenticationService.java:31-33 | A key repeats exactly when two different positions of the list hold kept entries whose parts before the first '=' are equal. |
| Authentication.CookiePairs | src/main/java/services/AuthenticationService.java:29-34 | A pair is produced exactly when it is the split of some entry that contains '=' and is longer than two units. |
| Authentication.CookiePairsAppend | src/main/java/services/AuthenticationService.java:29-34 | The pairs of two runs of entries are the first run's pairs followed by the second's, so there is one pair per kept entry, in list order. |
| Authentication.CookiePairsOne | src/main/java/services/AuthenticationService.java:31-33 | A single entry yields its split when it is kept and nothing otherwise. |
| Authentication.DistinctExactlyWithoutRepeats | src/main/java/services/AuthenticationService.java:32-33 | The pairs have distinct keys exactly when no two kept entries, even two identical ones, share a key. |
| Authentication.KeysMeanEntryKeys | src/main/java/services/AuthenticationService.java:32 | The keys of the pairs are exactly the keys the kept entries put in. |
| Authentication.CookieMap | src/main/java/services/AuthenticationService.java:29-34 | The map exists exactly when no two kept entries share a key. It holds exactly the kept keys, each with its entry's value. |
| Authentication.Check | src/main/java/services/AuthenticationService.java:17-27 | A missing Cookie header is not authenticated. The check throws exactly when two kept cookie entries share a key. |
| Authentication.CheckMeansToken | src/main/java/services/AuthenticationService.java:17-27 | Without repeated keys, the check passes exactly when some entry is flight_reservation_auth=abcd or flight_reservation_auth=aabbccc. |
| Authentication.NothingRetainedRejected | src/main/java/services/AuthenticationService.java:17-34 | A cookie list with no retained entry, the empty list included, is not authenticated. |
| Authentication.CookieExamples | src/main/java/services/AuthenticationService.java:29-34 | The same cookie sent twice makes the check throw, and an entry of '=' and one code point outside the Basic Multilingual Plane is three units long and kept. |
| Responses.NormalizeBody | src/main/java/handlers/FlightSearchHandler.java:48-50 | Blank bodies and bodies already ending in a newline are sent as they are. Others get one newline added. A non-blank sent body always ends in a newline. |
| JavaText.EndsWith | src/main/java/handlers/FlightSearchHandler.java:48 | A string ends with a suffix exactly when the suffix is no longer than it and the string is its own prefix followed by the suffix. |
| JavaText.EndsWithAppend | src/main/java/handlers/FlightReservationHandler.java:45 | Any text followed by a suffix ends with that suffix. |
| Responses.NormalizeBodyIdempotent | src/main/java/handlers/FlightSearchHandler.java:48-50 | Normalising twice is normalising once. |
| Responses.SendResponse | src/main/java/handlers/FlightReservationHandler.java:42-53 | The reply has the given status and exactly the normalised body: a newline is added only to a non-blank body that does not already end in one. |
| HttpExchange.NormalizeHeaderName | src/main/java/handlers/FlightSearchHandler.java:74-75 | A stored header name has the same length, its first character upper-cased and every other character lower-cased, ASCII letters only. |
| HttpExchange.NormalizeHeaderNameIdempotent | src/main/java/handlers/FlightSearchHandler.java:74-75 | A stored name is already normal. |
| HttpExchange.SameHeaderIgnoresCase | src/main/java/handlers/FlightSearchHandler.java:74-75 | Two names denote the same header exactly when they have the same length and agree at every position up to ASCII case. |
| HttpExchange.HeaderValues | src/main/java/handlers/FlightSearchHandler.java:74-75 | A value is listed for a header exactly when some line whose name matches case-insensitively carries it, and the first value listed is the value of the earliest such line. |
| HttpExchange.HeaderValuesAppend | src/main/java/handlers/FlightSearchHandler.java:99-101 | Arrival order is kept: the values of two runs of lines are the first run's values followed by the second's. |
| HttpExchange.GetHeader | src/main/java/handlers/FlightReservationHandler.java:76 | get returns null exactly for a header that was not sent, and otherwise a non-empty list of its values. |
| HttpExchange.ContainsHeader | src/main/java/handlers/FlightSearchHandler.java:74 | containsKey holds exactly when some header line's name matches, ignoring ASCII case. |
| HttpExchange.HeaderHasValue | src/main/java/handlers/FlightSearchHandler.java:75 | The list of a header's values contains a value exactly when some line with a matching name carries exactly that value. |
| SearchHandler.MissingMeansSomeRequiredAbsent | src/main/java/handlers/FlightSearchHandler.java:118-124 | The check reports a missing parameter exactly when one of origin, destination, day, month or year is not a key. Extra parameters never cause it. |
| SearchHandler.CheckMissingParameters | src/main/java/handlers/FlightSearchHandler.java:118-124 | A parameter is missing when origin, destination, day, month or year is not a key. |
| SearchHandler.AcceptsJson | src/main/java/handlers/FlightSearchHandler.java:74-75 | The Accept check passes when no Accept header was sent or one of its lines is exactly application/json. |
| SearchHandler.RefererOf | src/main/java/handlers/FlightSearchHandler.java:99-101 | The service gets the value of the earliest Referer line when a Referer header was sent, blank or not, and nothing otherwise. |
| SearchHandler.Handle | src/main/java/handlers/FlightSearchHandler.java:66-111 | A non-GET method gives 405. A failed Accept check gives 406. A repeated parameter writes nothing. A missing parameter gives 400. A date that does not parse writes nothing and calls nothing. The service is called exactly when every check passes, with the request's origin, destination, parsed date and referer, and then the reply is 200. No other status occurs. |
| SearchHandler.RefererForwarded | src/main/java/handlers/FlightSearchHandler.java:99-101 | End to end, no airline request is built when the client's first Referer value is non-blank and refused by setHeader. Otherwise each airline receives a Referer header exactly when that value is non-blank, and it receives that value. |
| ReservationHandler.Handle | src/main/java/handlers/FlightReservationHandler.java:68-96 | A non-POST method gives 405. A failed cookie check gives 401, and a repeated cookie key writes nothing. A missing or non-JSON Content-Type gives 415. A body that does not decode writes nothing. The service is called exactly when every check passes and the body decodes. A positive confirmation gives 200 with its decimal text, anything else gives 500, and no other status occurs. |
| ReservationHandler.BodyIsJson | src/main/java/handlers/FlightReservationHandler.java:81-83 | The Content-Type check passes when the header was sent and one of its lines is exactly application/json. |
| ReservationHandler.ConfirmationText | src/main/java/handlers/FlightReservationHandler.java:90-92 | A positive confirmation is sent as its digits plus one newline, and those digits parse back to it. |
| ReservationHandler.ConfirmationRoundTrip | src/main/java/handlers/FlightReservationHandler.java:90-92 | Every 200 reply carries a positive confirmation number that the client can parse back from the body. |
| ReservationHandler.UnknownAirlineFails | src/main/java/handlers/FlightReservationHandler.java:89-95 | End to end with the gateway's own service, a reservation for an airline outside the directory gets 500 and contacts no airline. |

## Left out

- Authentication.CookiePairs: its own contract states which pairs occur. That there is one pair per kept entry, in list order, is stated by `CookiePairsAppend` and `CookiePairsOne`, because a contract of the function cannot mention the function on a longer list.

- Network I/O, `HttpClient`, URI building and URL encoding are replaced by the `backend` parameter and the `SearchRequest`/`ReserveRequest` records. The airline's route, address, parameters and headers are kept.
- Jackson encoding and decoding are parameters. Default values for fields absent from the JSON are not modelled.
- SearchHandler.Handle: the encoding of the flight list (`convertFlightsToJSONString`) is a total `toJson` parameter, so its JsonProcessingException path is not modelled.
- `LocalDate.of` and `Integer.parseInt` for the date are the `parseDate` parameter. The gateway never inspects the date.
- Flights.RoundToCents: prices are exact reals, not IEEE doubles. Rounding is `floor(100p + 1/2) / 100` exactly, so double representation error in `priceUSD * 100.0` and in the division is not modelled.
- A null `airlineName` in a reservation request is not modelled. `Map.of(...).containsKey(null)` would throw. So are null query-parameter values.
- JavaNumbers.ParseLong: accepts only ASCII digits. Java's `Long.parseLong` also accepts other Unicode decimal digits.
- `equalsIgnoreCase` is modelled only against ASCII literals ("GET", "POST"). It folds ASCII letters and the four non-ASCII code points that fold onto ASCII letters. That is all Java's rule can match against such a literal.
- `sendResponse`'s byte length, the `Content-Type` response header and the stream writes are output only and not modelled.
- Logging (`System.out.println`, `printStackTrace`) is left out.
- `Flight`'s getters and its no-argument constructor are plain field access and are not modelled separately. Jackson fills a decoded flight through the setters, which `AirlinesService.FromJson` reflects by rounding the price.
- The iteration order of `Map.of(...).keySet()` is unspecified in Java, so the search takes the directory enumeration `dir` as a parameter. `EnumeratesDirectory` says what a valid enumeration is.
- `FakeAirlinesService`, `FlightsWrapper`, `WebServer` and the `AirlinesService` interface are not part of this model.
- `FlightReservationHandler`'s two-argument constructor leaves the authentication service null. Every reservation through it would fail on that null reference, and that wiring is not modelled.
- The search loop is sequential, as in the source. No concurrency is modelled.

=== FILE: airlines_service.dfy ===
/** services/RealAirlinesService.java: the airline directory, the search that
    asks every airline in turn and ranks what comes back, and the reservation
    that is routed to the one airline it names.

    The network is a parameter: a backend is a function from the request the
    gateway builds to what comes back (a transport failure or a status and a
    body). JSON decoding and encoding are parameters too, returning None where
    Jackson throws. */
module AirlinesService {
  import opened Wrappers
  import opened JavaText
  import opened JavaNumbers
  import opened JavaCollections
  import opened Flights
  import opened FlightSort

  const SearchRoute: string := "/show_flights"
  const ReserveRoute: string := "/book_flight"

  /** An airline name and its server address. */
  type Entry = (string, string)

  /** AIRLINE_TO_ADDRESS. */
  const AirlineToAddress: map<string, string> := map[
    "Delta Airlines" := "http://127.0.0.1:9000",
    "Alaska Airlines" := "http://127.0.0.1:9001",
    "Qatar Airways" := "http://127.0.0.1:9002",
    "Singapore Airlines" := "http://127.0.0.1:9003",
    "Japan Airlines" := "http://127.0.0.1:9004",
    "JetBlue" := "http://127.0.0.1:9005",
    "Hawaiian Airlines" := "http://127.0.0.1:9006",
    "British Airways" := "http://127.0.0.1:9007",
    "Korean air" := "http://127.0.0.1:9008",
    "Lufthansa" := "http://127.0.0.1:9009"
  ]

  /** `dir` lists every directory entry exactly once, in some order: what
      iterating over the key set of the directory yields. Map.of does not fix
      that order, so the search is stated for every such `dir`. */
  predicate EnumeratesDirectory(dir: seq<Entry>) {
    && DistinctKeys(dir)
    && KeysOf(dir) == AirlineToAddress.Keys
    && forall i :: 0 <= i < |dir| ==> dir[i].0 in AirlineToAddress && AirlineToAddress[dir[i].0] == dir[i].1
  }

  /** The directory in the order it is written in the source. */
  const DeclarationOrder: seq<Entry> := [
    ("Delta Airlines", "http://127.0.0.1:9000"),
    ("Alaska Airlines", "http://127.0.0.1:9001"),
    ("Qatar Airways", "http://127.0.0.1:9002"),
    ("Singapore Airlines", "http://127.0.0.1:9003"),
    ("Japan Airlines", "http://127.0.0.1:9004"),
    ("JetBlue", "http://127.0.0.1:9005"),
    ("Hawaiian Airlines", "http://127.0.0.1:9006"),
    ("British Airways", "http://127.0.0.1:9007"),
    ("Korean air", "http://127.0.0.1:9008"),
    ("Lufthansa", "http://127.0.0.1:9009")
  ]

  /** The declaration order is one enumeration of the directory. */
  lemma DeclarationOrderEnumerates()
    ensures EnumeratesDirectory(DeclarationOrder)
  {
    DeclarationOrderDistinct();
    DeclarationOrderKeysListed();
    DeclarationOrderListsKeys();
    DeclarationOrderAddresses();
  }

  // Helper for DeclarationOrderEnumerates, one conjunct per lemma.
  lemma DeclarationOrderDistinct()
    ensures DistinctKeys(DeclarationOrder)
  {
  }

  // Helper for DeclarationOrderEnumerates, one conjunct per lemma.
  lemma DeclarationOrderAddresses()
    ensures forall i :: 0 <= i < |DeclarationOrder| ==>
      DeclarationOrder[i].0 in AirlineToAddress && AirlineToAddress[DeclarationOrder[i].0] == DeclarationOrder[i].1
  {
  }

  // Helper for DeclarationOrderEnumerates, one conjunct per lemma.
  lemma DeclarationOrderKeysListed()
    ensures KeysOf(DeclarationOrder) <= AirlineToAddress.Keys
  {
    DeclarationOrderAddresses();
  }

  // Helper for DeclarationOrderEnumerates, one conjunct per lemma.
  lemma DeclarationOrderListsKeys()
    ensures AirlineToAddress.Keys <= KeysOf(DeclarationOrder)
  {
    var d := DeclarationOrder;
    assert d[0].0 in KeysOf(d) && d[1].0 in KeysOf(d) && d[2].0 in KeysOf(d) && d[3].0 in KeysOf(d);
    assert d[4].0 in KeysOf(d) && d[5].0 in KeysOf(d) && d[6].0 in KeysOf(d) && d[7].0 in KeysOf(d);
    assert d[8].0 in KeysOf(d) && d[9].0 in KeysOf(d);
  }

  /** The directory has ten airlines, so every enumeration of it has ten
      entries. */
  lemma DirectoryHasTenAirlines(dir: seq<Entry>)
    requires EnumeratesDirectory(dir)
    ensures |AirlineToAddress| == 10
    ensures |dir| == 10
  {
    DirectorySize();
    DistinctKeysCount(dir);
    assert |KeysOf(dir)| == |AirlineToAddress.Keys|;
  }

  // Helper for DirectoryHasTenAirlines.
  lemma DirectorySize()
    ensures |AirlineToAddress.Keys| == |AirlineToAddress| == 10
  {
  }

  /** A list with distinct keys has as many keys as entries. */
  lemma {:induction false} DistinctKeysCount<K, V>(pairs: seq<(K, V)>)
    requires DistinctKeys(pairs)
    ensures |KeysOf(pairs)| == |pairs|
  {
    if pairs != [] {
      var init := pairs[..|pairs| - 1];
      assert DistinctKeys(init) by {
        forall i, j | 0 <= i < j < |init| ensures init[i].0 != init[j].0 {
          assert init[i] == pairs[i] && init[j] == pairs[j];
        }
      }
      DistinctKeysCount(init);
      assert KeysOf(pairs) == KeysOf(init) + {pairs[|pairs| - 1].0} by {
        forall k | k in KeysOf(pairs) ensures k in KeysOf(init) + {pairs[|pairs| - 1].0} {
          var i :| 0 <= i < |pairs| && pairs[i].0 == k;
          if i < |init| {
            assert init[i] == pairs[i];
          }
        }
        forall k | k in KeysOf(init) ensures k in KeysOf(pairs) {
          var i :| 0 <= i < |init| && init[i].0 == k;
          assert pairs[i] == init[i];
        }
      }
      assert pairs[|pairs| - 1].0 !in KeysOf(init);
    }
  }

  // ---------------------------------------------------------------------
  // Search

  /** What the client asked for: route, date and the optional Referer. */
  datatype SearchQuery = SearchQuery(origin: string, destination: string, date: Date, referer: Option<string>)

  /** The GET request sent to one airline. The query string itself is built
      by a URI library and stays abstract: its ingredients are kept. */
  datatype SearchRequest = SearchRequest(
    address: string,
    path: string,
    origin: string,
    destination: string,
    date: Date,
    headers: seq<(string, string)>)

  /** What one airline's search call gives back. */
  datatype SearchOutcome =
    | SearchTransportError
    | SearchResponse(status: int, body: string)

  /** The fields of a flight as they appear in the JSON body. */
  datatype FlightJson = FlightJson(
    id: int,
    airlineName: string,
    priceUSD: real,
    numberOfFreeBags: int,
    numberOfAvailableSeats: int,
    date: Date)

  /** HttpRequest.Builder.setHeader's check on a header value, a field
      value in the sense of section 3.2 of RFC 7230 without obsolete line
      folding: every character is a space, a tab, or in 0x21..0xFF other
      than DEL (0x7F). */
  function ValidHeaderValue(v: string): (ok: bool)
    ensures ok <==> !HasBadHeaderChar(v)
    ensures ok ==> forall i :: 0 <= i < |v| ==> v[i] as int <= 0xFF
    ensures (forall i :: 0 <= i < |v| ==> 0x20 <= v[i] as int <= 0x7E) ==> ok
  {
    forall i :: 0 <= i < |v| ==> ValidHeaderChar(v[i])
  }

  /** Printable ASCII and tab are accepted; every other control character,
      DEL and everything above U+00FF are refused. */
  function ValidHeaderChar(c: char): (ok: bool)
    ensures 0x20 <= c as int <= 0x7E || c == '\t' ==> ok
    ensures c as int < 0x20 && c != '\t' ==> !ok
    ensures c as int == 0x7F || c as int > 0xFF ==> !ok
  {
    c == ' ' || c == '\t' || (0x21 <= c as int <= 0xFF && c as int != 0x7F)
  }

  /** The client gave a Referer that is not blank, so it is to be set on
      every airline request: it is present and holds some character that
      is not whitespace. */
  function ForwardsReferer(q: SearchQuery): (b: bool)
    ensures b <==> q.referer.Some? && HasNonWhitespace(q.referer.value)
  {
    q.referer.Some? && !IsBlank(q.referer.value)
  }

  predicate HasNonWhitespace(s: string) {
    exists i :: 0 <= i < |s| && !IsWhitespace(s[i])
  }

  /** setHeader refuses the Referer with IllegalArgumentException, before
      any request is built: it is forwarded and one of its characters is a
      control character other than tab, DEL, or above U+00FF. */
  function RefererRejected(q: SearchQuery): (b: bool)
    ensures b <==> ForwardsReferer(q) && HasBadHeaderChar(q.referer.value)
  {
    ForwardsReferer(q) && !ValidHeaderValue(q.referer.value)
  }

  predicate HasBadHeaderChar(v: string) {
    exists i :: 0 <= i < |v| && BadHeaderChar(v[i])
  }

  predicate BadHeaderChar(c: char) {
    (c as int < 0x20 && c != '\t') || c as int == 0x7F || c as int > 0xFF
  }

  /** The request for one airline: the search route at its address, the
      route and date, `Accept: application/json`, and the Referer only when
      the client gave a non-blank one. None when setHeader refuses that
      Referer. */
  function BuildSearchRequest(address: string, q: SearchQuery): (r: Option<SearchRequest>)
    ensures r.None? <==> RefererRejected(q)
    ensures r.Some? ==> r.value.address == address && r.value.path == SearchRoute
    ensures r.Some? ==>
      r.value.origin == q.origin && r.value.destination == q.destination && r.value.date == q.date
    ensures r.Some? ==> ("Accept", "application/json") in r.value.headers
    ensures r.Some? ==> |r.value.headers| == (if ForwardsReferer(q) then 2 else 1)
    ensures r.Some? ==> forall h :: h in r.value.headers ==> h == ("Accept", "application/json") || h.0 == "Referer"
    ensures r.Some? ==> forall v :: ("Referer", v) in r.value.headers <==> q.referer == Some(v) && !IsBlank(v)
  {
    var accept := [("Accept", "application/json")];
    if RefererRejected(q) then None
    else
      var headers := if ForwardsReferer(q) then accept + [("Referer", q.referer.value)] else accept;
      Some(SearchRequest(address, SearchRoute, q.origin, q.destination, q.date, headers))
  }

  /** A Referer carrying a control character, or a character above
      U+00FF, is refused; one made of printable ASCII is not. */
  lemma RefererExamples(address: string, o: string, d: string, date: Date)
    ensures BuildSearchRequest(address, SearchQuery(o, d, date, Some("a\U{0001}b"))).None?
    ensures BuildSearchRequest(address, SearchQuery(o, d, date, Some("caf\U{0153}"))).None?
    ensures BuildSearchRequest(address, SearchQuery(o, d, date, Some("http://a.example/"))).Some?
  {
    assert !ValidHeaderChar("a\U{0001}b"[1]) && !IsWhitespace("a\U{0001}b"[0]);
    assert !ValidHeaderChar("caf\U{0153}"[3]) && !IsWhitespace("caf\U{0153}"[0]);
  }

  /** Jackson fills a Flight through its no-argument constructor and its
      setters, so the price passes through setPriceUSD. */
  function FromJson(j: FlightJson): (f: Flight)
    ensures WellFormed(f)
    ensures f.id == j.id && f.airlineName == j.airlineName && f.date == j.date
    ensures f.numberOfFreeBags == j.numberOfFreeBags && f.numberOfAvailableSeats == j.numberOfAvailableSeats
    ensures j.priceUSD - 0.005 < f.priceUSD <= j.priceUSD + 0.005
  {
    NewFlight(j.id, j.airlineName, j.priceUSD, j.numberOfFreeBags, j.numberOfAvailableSeats, j.date)
  }

  /** convertResponseBodyToFlight: nothing for a blank body, nothing for a
      body the parser rejects, the decoded flight otherwise. */
  function ConvertResponseBodyToFlight(body: string, parse: string -> Option<FlightJson>): (r: Option<Flight>)
    ensures IsBlank(body) ==> r == None
    ensures !IsBlank(body) && parse(body).None? ==> r == None
    ensures !IsBlank(body) && parse(body).Some? ==> r == Some(FromJson(parse(body).value))
    ensures r.Some? ==> WellFormed(r.value)
  {
    if IsBlank(body) then None
    else
      match parse(body)
      case None => None
      case Some(j) => Some(FromJson(j))
  }

  /** One turn of the search loop: the flight one airline contributes, if
      any. A refused Referer is caught and contributes nothing; otherwise
      the response status is not looked at: any body that decodes counts. */
  function Attempt(e: Entry, q: SearchQuery, backend: SearchRequest -> SearchOutcome,
                   parse: string -> Option<FlightJson>): (r: Option<Flight>)
    ensures RefererRejected(q) ==> r == None
    ensures !RefererRejected(q) && backend(BuildSearchRequest(e.1, q).value).SearchTransportError? ==> r == None
    ensures !RefererRejected(q) && backend(BuildSearchRequest(e.1, q).value).SearchResponse? ==>
      r == ConvertResponseBodyToFlight(backend(BuildSearchRequest(e.1, q).value).body, parse)
    ensures r.Some? ==> WellFormed(r.value)
  {
    match BuildSearchRequest(e.1, q)
    case None => None
    case Some(request) =>
      match backend(request)
      case SearchTransportError => None
      case SearchResponse(_, body) => ConvertResponseBodyToFlight(body, parse)
  }

  /** `f` is what airline `i` of `dir` contributed. */
  predicate ContributedBy(dir: seq<Entry>, q: SearchQuery, backend: SearchRequest -> SearchOutcome,
                          parse: string -> Option<FlightJson>, f: Flight) {
    exists i :: 0 <= i < |dir| && Attempt(dir[i], q, backend, parse) == Some(f)
  }

  /** No airline of `dir` produced a flight. */
  predicate AllFail(dir: seq<Entry>, q: SearchQuery, backend: SearchRequest -> SearchOutcome,
                    parse: string -> Option<FlightJson>) {
    forall i :: 0 <= i < |dir| ==> Attempt(dir[i], q, backend, parse).None?
  }

  /** The flights the loop collects, in directory order: one per airline
      whose call produced a flight, none for the others. */
  function Collect(dir: seq<Entry>, q: SearchQuery, backend: SearchRequest -> SearchOutcome,
                   parse: string -> Option<FlightJson>): (r: seq<Flight>)
    ensures |r| <= |dir|
    ensures forall i :: 0 <= i < |r| ==> WellFormed(r[i])
    ensures AllFail(dir, q, backend, parse) ==> r == []
  {
    if dir == [] then []
    else
      var init := dir[..|dir| - 1];
      var last := Attempt(dir[|dir| - 1], q, backend, parse);
      AllFailStep(dir, q, backend, parse);
      Collect(init, q, backend, parse) + (if last.Some? then [last.value] else [])
  }

  /** The collected list holds exactly the flights some airline of `dir`
      contributed. */
  lemma {:induction false} CollectMembers(dir: seq<Entry>, q: SearchQuery, backend: SearchRequest -> SearchOutcome,
                                          parse: string -> Option<FlightJson>)
    ensures forall f :: f in Collect(dir, q, backend, parse) <==> ContributedBy(dir, q, backend, parse, f)
    decreases |dir|
  {
    if dir != [] {
      CollectMembers(dir[..|dir| - 1], q, backend, parse);
      ContributedByStep(dir, q, backend, parse);
    }
  }

  /** The flights contributed by a directory are those contributed by all
      its entries but the last, plus the last entry's flight. */
  lemma ContributedByStep(dir: seq<Entry>, q: SearchQuery, backend: SearchRequest -> SearchOutcome,
                          parse: string -> Option<FlightJson>)
    requires dir != []
    ensures forall f :: ContributedBy(dir, q, backend, parse, f) <==>
      ContributedBy(dir[..|dir| - 1], q, backend, parse, f) || Attempt(dir[|dir| - 1], q, backend, parse) == Some(f)
  {
    var init := dir[..|dir| - 1];
    var last := Attempt(dir[|dir| - 1], q, backend, parse);
    forall f ensures ContributedBy(dir, q, backend, parse, f) <==>
        ContributedBy(init, q, backend, parse, f) || last == Some(f) {
      if ContributedBy(dir, q, backend, parse, f) {
        var i :| 0 <= i < |dir| && Attempt(dir[i], q, backend, parse) == Some(f);
        if i < |init| {
          assert init[i] == dir[i];
        }
      }
      if ContributedBy(init, q, backend, parse, f) {
        var i :| 0 <= i < |init| && Attempt(init[i], q, backend, parse) == Some(f);
        assert dir[i] == init[i];
      }
    }
  }

  /** When every airline fails, so does every airline but the last. */
  lemma AllFailStep(dir: seq<Entry>, q: SearchQuery, backend: SearchRequest -> SearchOutcome,
                    parse: string -> Option<FlightJson>)
    requires dir != []
    ensures AllFail(dir, q, backend, parse) ==> AllFail(dir[..|dir| - 1], q, backend, parse)
  {
    var init := dir[..|dir| - 1];
    if AllFail(dir, q, backend, parse) {
      forall i | 0 <= i < |init| ensures Attempt(init[i], q, backend, parse).None? {
        assert init[i] == dir[i];
      }
    }
  }

  /** One more turn of the loop: the first `i + 1` airlines give what the
      first `i` gave, then airline `i`'s flight if it produced one. */
  lemma CollectPrefix(dir: seq<Entry>, i: nat, q: SearchQuery, backend: SearchRequest -> SearchOutcome,
                      parse: string -> Option<FlightJson>, collected: seq<Flight>, flight: Option<Flight>)
    requires i < |dir|
    requires collected == Collect(dir[..i], q, backend, parse)
    requires flight == Attempt(dir[i], q, backend, parse)
    ensures collected + (if flight.Some? then [flight.value] else []) == Collect(dir[..i + 1], q, backend, parse)
  {
    var prefix := dir[..i + 1];
    assert prefix[..|prefix| - 1] == dir[..i];
    assert prefix[|prefix| - 1] == dir[i];
  }

  /** Airlines are independent: the flights collected from two runs of the
      directory are the two collections one after the other, so a failing
      airline neither stops the loop nor disturbs the others. */
  lemma {:induction false} CollectAppend(a: seq<Entry>, b: seq<Entry>, q: SearchQuery,
                                         backend: SearchRequest -> SearchOutcome,
                                         parse: string -> Option<FlightJson>)
    ensures Collect(a + b, q, backend, parse) == Collect(a, q, backend, parse) + Collect(b, q, backend, parse)
    decreases |b|
  {
    if b == [] {
      assert a + b == a;
    } else {
      var b' := b[..|b| - 1];
      assert (a + b)[..|a + b| - 1] == a + b';
      assert (a + b)[|a + b| - 1] == b[|b| - 1];
      CollectAppend(a, b', q, backend, parse);
    }
  }

  lemma CollectOne(e: Entry, q: SearchQuery, backend: SearchRequest -> SearchOutcome,
                   parse: string -> Option<FlightJson>)
    ensures Attempt(e, q, backend, parse).None? ==> Collect([e], q, backend, parse) == []
  {
    assert [e][..0] == [];
  }

  /** An airline that yields nothing contributes nothing. */
  lemma FailedAirlineContributesNothing(dir: seq<Entry>, i: nat, q: SearchQuery,
                                        backend: SearchRequest -> SearchOutcome,
                                        parse: string -> Option<FlightJson>)
    requires i < |dir| && Attempt(dir[i], q, backend, parse).None?
    ensures Collect(dir, q, backend, parse)
         == Collect(dir[..i], q, backend, parse) + Collect(dir[i + 1..], q, backend, parse)
  {
    var before, after := dir[..i], dir[i + 1..];
    var rest := [dir[i]] + after;
    assert dir == before + rest;
    CollectAppend(before, rest, q, backend, parse);
    CollectAppend([dir[i]], after, q, backend, parse);
    CollectOne(dir[i], q, backend, parse);
    assert Collect(rest, q, backend, parse) == Collect(after, q, backend, parse);
  }

  /** findAllFlight, as a value: the collected flights sorted with the
      reverse of Flight's natural order. */
  function FindAllFlight(dir: seq<Entry>, q: SearchQuery, backend: SearchRequest -> SearchOutcome,
                         parse: string -> Option<FlightJson>): (r: seq<Flight>)
    ensures CheapestFirst(r)
    ensures multiset(r) == multiset(Collect(dir, q, backend, parse))
    ensures |r| <= |dir|
    ensures forall f :: f in r <==> ContributedBy(dir, q, backend, parse, f)
    ensures forall i :: 0 <= i < |r| ==> WellFormed(r[i])
    ensures AllFail(dir, q, backend, parse) ==> r == []
  {
    var collected := Collect(dir, q, backend, parse);
    var r := Sort(collected);
    CollectMembers(dir, q, backend, parse);
    SortedMeansCheapestFirst(r);
    assert |r| == |multiset(r)| == |collected|;
    assert forall f :: f in r <==> f in collected by {
      forall f ensures f in r <==> f in collected {
        assert f in r <==> f in multiset(r);
        assert f in collected <==> f in multiset(collected);
      }
    }
    assert forall i :: 0 <= i < |r| ==> WellFormed(r[i]) by {
      forall i | 0 <= i < |r| ensures WellFormed(r[i]) {
        assert r[i] in collected;
      }
    }
    r
  }

  /** Flights of equal price keep the order of the airlines they came from. */
  lemma FindAllFlightKeepsTies(dir: seq<Entry>, q: SearchQuery, backend: SearchRequest -> SearchOutcome,
                               parse: string -> Option<FlightJson>)
    ensures TiesInOrder(Collect(dir, q, backend, parse), FindAllFlight(dir, q, backend, parse))
  {
    SortStable(Collect(dir, q, backend, parse));
  }

  /** With the real directory, at most ten flights come back. */
  lemma FindAllFlightAtMostTen(dir: seq<Entry>, q: SearchQuery, backend: SearchRequest -> SearchOutcome,
                               parse: string -> Option<FlightJson>)
    requires EnumeratesDirectory(dir)
    ensures |FindAllFlight(dir, q, backend, parse)| <= 10
  {
    DirectoryHasTenAirlines(dir);
  }

  /** A refused Referer makes every airline fail, so the search finds
      nothing. */
  lemma RejectedRefererFindsNothing(dir: seq<Entry>, q: SearchQuery, backend: SearchRequest -> SearchOutcome,
                                    parse: string -> Option<FlightJson>)
    requires RefererRejected(q)
    ensures AllFail(dir, q, backend, parse)
    ensures FindAllFlight(dir, q, backend, parse) == []
  {
    assert AllFail(dir, q, backend, parse);
  }

  /** `sent` is what the first `i` turns of the loop sent: nothing when the
      Referer is refused, otherwise airline k's request at position k. */
  predicate SentFor(sent: seq<SearchRequest>, dir: seq<Entry>, i: nat, q: SearchQuery)
    requires i <= |dir|
  {
    if RefererRejected(q) then sent == []
    else |sent| == i && forall k :: 0 <= k < i ==> sent[k] == BuildSearchRequest(dir[k].1, q).value
  }

  /** One more turn of the loop sends airline `i`'s request, if it could be
      built. */
  lemma SentStep(sent: seq<SearchRequest>, dir: seq<Entry>, i: nat, q: SearchQuery)
    requires i < |dir| && SentFor(sent, dir, i, q)
    ensures var request := BuildSearchRequest(dir[i].1, q);
      SentFor(sent + (if request.Some? then [request.value] else []), dir, i + 1, q)
  {
  }

  /** One turn of the loop as written: build the request (None when the
      Referer is refused), send it, and convert the body. */
  method SearchOne(e: Entry, q: SearchQuery, backend: SearchRequest -> SearchOutcome,
                   parse: string -> Option<FlightJson>)
    returns (flight: Option<Flight>, request: Option<SearchRequest>)
    ensures request == BuildSearchRequest(e.1, q)
    ensures flight == Attempt(e, q, backend, parse)
  {
    request := BuildSearchRequest(e.1, q);
    flight := None;
    if request.Some? {
      var outcome := backend(request.value);
      if outcome.SearchResponse? {
        flight := ConvertResponseBodyToFlight(outcome.body, parse);
      }
    }
  }

  /** The loop of findAllFlight as written: in directory order, each
      airline's request is built and sent, whatever the earlier airlines
      answered, then the flights are sorted. A refused Referer throws
      inside every turn, so nothing is sent. Returns the flights and the
      requests that were sent. */
  method SearchAllAirlines(dir: seq<Entry>, q: SearchQuery, backend: SearchRequest -> SearchOutcome,
                           parse: string -> Option<FlightJson>)
    returns (flights: seq<Flight>, sent: seq<SearchRequest>)
    ensures flights == FindAllFlight(dir, q, backend, parse)
    ensures RefererRejected(q) ==> sent == [] && flights == []
    ensures !RefererRejected(q) ==> |sent| == |dir|
    ensures !RefererRejected(q) ==>
      forall i :: 0 <= i < |dir| ==> sent[i] == BuildSearchRequest(dir[i].1, q).value
  {
    var collected: seq<Flight> := [];
    sent := [];
    var i := 0;
    while i < |dir|
      invariant 0 <= i <= |dir|
      invariant collected == Collect(dir[..i], q, backend, parse)
      invariant SentFor(sent, dir, i, q)
    {
      var flight, request := SearchOne(dir[i], q, backend, parse);
      SentStep(sent, dir, i, q);
      sent := sent + (if request.Some? then [request.value] else []);
      CollectPrefix(dir, i, q, backend, parse, collected, flight);
      collected := collected + (if flight.Some? then [flight.value] else []);
      i := i + 1;
    }
    assert dir[..i] == dir;
    flights := Sort(collected);
    if RefererRejected(q) {
      RejectedRefererFindsNothing(dir, q, backend, parse);
    }
  }

  // ---------------------------------------------------------------------
  // Reservation

  /** The reservation payload: opaque to the gateway and forwarded as is. */
  datatype TicketReservationRequest = TicketReservationRequest(id: int, airlineName: string, numberOfTickets: int)

  /** The POST sent to the chosen airline. */
  datatype ReserveRequest = ReserveRequest(address: string, path: string, headers: seq<(string, string)>, body: string)

  /** What the reservation call gives back. */
  datatype ReserveOutcome =
    | ReserveTransportError
    | ReserveResponse(status: int, body: string)

  /** The confirmation number (or -1) together with the requests that went
      out, so that "no call was made" can be stated. */
  datatype Reservation = Reservation(confirmation: int, sent: seq<ReserveRequest>)

  function BuildReserveRequest(address: string, body: string): (req: ReserveRequest)
    ensures req.address == address && req.path == ReserveRoute && req.body == body
    ensures ("Content-Type", "application/json") in req.headers
    ensures ("Accept", "text/plain; charset=UTF-8") in req.headers
    ensures |req.headers| == 2
  {
    ReserveRequest(address, ReserveRoute,
      [("Content-Type", "application/json"), ("Accept", "text/plain; charset=UTF-8")], body)
  }

  /** How reserveFlight reads the airline's answer: status 200 gives the
      body read as a long, whatever its sign; anything else, a body that is
      not a long among them, gives -1. */
  function ConfirmationOf(outcome: ReserveOutcome): (n: int)
    ensures MinLong <= n <= MaxLong
    ensures outcome.ReserveResponse? && outcome.status == 200 && ParseLong(outcome.body).Some?
      ==> n == ParseLong(outcome.body).value
    ensures outcome.ReserveTransportError? ==> n == -1
    ensures outcome.ReserveResponse? && outcome.status != 200 ==> n == -1
    ensures outcome.ReserveResponse? && ParseLong(outcome.body).None? ==> n == -1
  {
    match outcome
    case ReserveTransportError => -1
    case ReserveResponse(status, body) =>
      if status == 200 then
        match ParseLong(body)
        case Some(n) => n
        case None => -1
      else -1
  }

  /** reserveFlight: an airline outside the directory fails at once with no
      request sent; otherwise the payload is encoded (an encoding failure is
      caught and gives -1 with no request sent) and exactly one request goes
      to that airline's reservation route. */
  function ReserveFlight(t: TicketReservationRequest, backend: ReserveRequest -> ReserveOutcome,
                         toJson: TicketReservationRequest -> Option<string>): (r: Reservation)
    ensures t.airlineName !in AirlineToAddress ==> r == Reservation(-1, [])
    ensures t.airlineName in AirlineToAddress && toJson(t).None? ==> r == Reservation(-1, [])
    ensures t.airlineName in AirlineToAddress && toJson(t).Some? ==>
      && |r.sent| == 1
      && r.sent[0].address == AirlineToAddress[t.airlineName]
      && r.sent[0].path == ReserveRoute
      && r.sent[0].body == toJson(t).value
      && r.sent[0] == BuildReserveRequest(AirlineToAddress[t.airlineName], toJson(t).value)
      && r.confirmation == ConfirmationOf(backend(r.sent[0]))
    ensures MinLong <= r.confirmation <= MaxLong
  {
    if t.airlineName !in AirlineToAddress then Reservation(-1, [])
    else
      match toJson(t)
      case None => Reservation(-1, [])
      case Some(body) =>
        var request := BuildReserveRequest(AirlineToAddress[t.airlineName], body);
        Reservation(ConfirmationOf(backend(request)), [request])
  }

  /** A 200 answer whose body is the decimal text of a long is returned as
      that long: "12345" gives 12345, and "0" or "-5" come back unchanged
      because reserveFlight does not check the sign. */
  lemma ReserveReturnsBody(t: TicketReservationRequest, backend: ReserveRequest -> ReserveOutcome,
                           toJson: TicketReservationRequest -> Option<string>, n: int)
    requires t.airlineName in AirlineToAddress && toJson(t).Some?
    requires MinLong <= n <= MaxLong
    requires backend(BuildReserveRequest(AirlineToAddress[t.airlineName], toJson(t).value))
      == ReserveResponse(200, LongToString(n))
    ensures ReserveFlight(t, backend, toJson).confirmation == n
  {
    ParseLongToString(n);
  }
}

=== FILE: authentication.dfy ===
/** services/AuthenticationService.java: the cookie-token check guarding
    reservations. Each element of the cookie list is one raw `Cookie` header
    value; the check never splits a header at ';'. */
module Authentication {
  import opened Wrappers
  import opened JavaText
  import opened JavaCollections

  const AuthenticationKey: string := "flight_reservation_auth"
  const AuthenticatedValues: set<string> := {"abcd", "aabbccc"}

  /** The entries the parser keeps: they contain '=' and are longer than two
      UTF-16 code units. */
  predicate Retained(entry: string) {
    '=' in entry && Utf16Length(entry) > 2
  }

  /** Splits an entry at its first '=': the key is everything before it, the
      value everything after it, '=' characters included. */
  function SplitCookie(entry: string): (kv: (string, string))
    requires '=' in entry
    ensures '=' !in kv.0
    ensures kv.0 + "=" + kv.1 == entry
  {
    var i := IndexOf(entry, '=');
    assert entry == entry[..i] + "=" + entry[i + 1..];
    (entry[..i], entry[i + 1..])
  }

  /** The key/value pairs of the retained entries, in list order. */
  function CookiePairs(cookies: seq<string>): (pairs: seq<(string, string)>)
    ensures |pairs| <= |cookies|
    ensures forall kv :: kv in pairs <==> ParsedFrom(cookies, kv)
  {
    if cookies == [] then []
    else
      var init := cookies[..|cookies| - 1];
      var last := cookies[|cookies| - 1];
      ParsedFromStep(cookies);
      CookiePairs(init) + (if Retained(last) then [SplitCookie(last)] else [])
  }

  /** The pairs parsed from a list are those parsed from all but its last
      entry, plus the last entry's split when it is retained. */
  lemma ParsedFromStep(cookies: seq<string>)
    requires cookies != []
    ensures forall kv :: ParsedFrom(cookies, kv) <==>
      ParsedFrom(cookies[..|cookies| - 1], kv)
      || (Retained(cookies[|cookies| - 1]) && SplitCookie(cookies[|cookies| - 1]) == kv)
  {
    var init, last := cookies[..|cookies| - 1], cookies[|cookies| - 1];
    assert cookies == init + [last];
    forall e ensures e in cookies <==> e in init || e == last {
    }
  }

  /** `kv` is the split of some retained entry of the list. */
  predicate ParsedFrom(cookies: seq<string>, kv: (string, string)) {
    exists e :: e in cookies && Retained(e) && SplitCookie(e) == kv
  }

  /** The key each entry puts into the map, in list order: the part
      before its first '=' when the entry is retained, nothing otherwise. */
  function EntryKeys(cookies: seq<string>): (ks: seq<Option<string>>)
    ensures |ks| == |cookies|
    ensures forall i :: 0 <= i < |cookies| ==>
      ks[i] == if Retained(cookies[i]) then Some(SplitCookie(cookies[i]).0) else None
  {
    seq(|cookies|, i requires 0 <= i < |cookies| =>
      if Retained(cookies[i]) then Some(SplitCookie(cookies[i]).0) else None)
  }

  /** Two different retained entries, possibly identical, share a key. */
  predicate RepeatsKey(cookies: seq<string>) {
    RepeatsSome(EntryKeys(cookies))
  }

  /** Entries `i` and `j` are both retained and have the same key. */
  predicate SameRetainedKey(cookies: seq<string>, i: int, j: int)
    requires 0 <= i < |cookies| && 0 <= j < |cookies|
  {
    Retained(cookies[i]) && Retained(cookies[j]) && SplitCookie(cookies[i]).0 == SplitCookie(cookies[j]).0
  }

  /** A key repeats exactly when two positions of the list hold retained
      entries with the same key. */
  lemma RepeatsKeyMeans(cookies: seq<string>)
    ensures RepeatsKey(cookies) <==> exists i, j :: 0 <= i < j < |cookies| && SameRetainedKey(cookies, i, j)
  {
    var ks := EntryKeys(cookies);
    if RepeatsKey(cookies) {
      var i, j :| 0 <= i < j < |ks| && ks[i].Some? && ks[i] == ks[j];
      assert SameRetainedKey(cookies, i, j);
    }
    if exists i, j :: 0 <= i < j < |cookies| && SameRetainedKey(cookies, i, j) {
      var i, j :| 0 <= i < j < |cookies| && SameRetainedKey(cookies, i, j);
      assert ks[i].Some? && ks[i] == ks[j];
    }
  }

  /** The pairs of two runs of entries are the pairs of the first run, then
      those of the second: one pair per retained entry, in list order. */
  lemma {:induction false} CookiePairsAppend(a: seq<string>, b: seq<string>)
    ensures CookiePairs(a + b) == CookiePairs(a) + CookiePairs(b)
    decreases |b|
  {
    if b == [] {
      assert a + b == a;
    } else {
      var b' := b[..|b| - 1];
      assert (a + b)[..|a + b| - 1] == a + b';
      assert (a + b)[|a + b| - 1] == b[|b| - 1];
      CookiePairsAppend(a, b');
    }
  }

  /** A single entry yields its split when it is retained and nothing
      otherwise. */
  lemma CookiePairsOne(e: string)
    ensures CookiePairs([e]) == if Retained(e) then [SplitCookie(e)] else []
  {
    assert [e][..0] == [];
  }

  /** The parsed pairs have distinct keys exactly when no two retained
      entries share a key; in particular an entry sent twice repeats its
      key. */
  lemma {:induction false} DistinctExactlyWithoutRepeats(cookies: seq<string>)
    ensures DistinctKeys(CookiePairs(cookies)) <==> !RepeatsKey(cookies)
    decreases |cookies|
  {
    if cookies != [] {
      var init, last := cookies[..|cookies| - 1], cookies[|cookies| - 1];
      DistinctExactlyWithoutRepeats(init);
      var k := EntryKeys(cookies)[|cookies| - 1];
      assert EntryKeys(cookies) == EntryKeys(init) + [k];
      RepeatsSomeSnoc(EntryKeys(init), k);
      if Retained(last) {
        var kv := SplitCookie(last);
        assert CookiePairs(cookies) == CookiePairs(init) + [kv];
        DistinctKeysSnoc(CookiePairs(init), kv);
        KeysMeanEntryKeys(init, kv.0);
      } else {
        assert CookiePairs(cookies) == CookiePairs(init);
      }
    }
  }

  /** The keys of the parsed pairs are the keys the entries put in. */
  lemma KeysMeanEntryKeys(cookies: seq<string>, k: string)
    ensures k in KeysOf(CookiePairs(cookies)) <==> Some(k) in EntryKeys(cookies)
  {
    var pairs, ks := CookiePairs(cookies), EntryKeys(cookies);
    if k in KeysOf(pairs) {
      var i :| 0 <= i < |pairs| && pairs[i].0 == k;
      assert ParsedFrom(cookies, pairs[i]);
      var e :| e in cookies && Retained(e) && SplitCookie(e) == pairs[i];
      var j :| 0 <= j < |cookies| && cookies[j] == e;
      assert ks[j] == Some(k);
    }
    if Some(k) in ks {
      var j :| 0 <= j < |ks| && ks[j] == Some(k);
      assert Retained(cookies[j]);
      assert ParsedFrom(cookies, SplitCookie(cookies[j]));
      var i :| 0 <= i < |pairs| && pairs[i] == SplitCookie(cookies[j]);
    }
  }

  /** getCookiesKeyValuePairs: None when two retained entries share a key
      (the collector throws IllegalStateException). */
  function CookieMap(cookies: seq<string>): (m: Option<map<string, string>>)
    ensures m.Some? <==> !RepeatsKey(cookies)
    ensures m.Some? ==> forall k :: k in m.value <==> exists v :: ParsedFrom(cookies, (k, v))
    ensures m.Some? ==> forall k, v :: ParsedFrom(cookies, (k, v)) ==> k in m.value && m.value[k] == v
  {
    var r := ToMap(CookiePairs(cookies));
    DistinctExactlyWithoutRepeats(cookies);
    if r.Some? then
      CookieMapHasParsed(cookies);
      CookieMapOnlyParsed(cookies);
      r
    else r
  }

  /** Every parsed pair is in the collected map. */
  lemma CookieMapHasParsed(cookies: seq<string>)
    requires ToMap(CookiePairs(cookies)).Some?
    ensures forall k, v :: ParsedFrom(cookies, (k, v)) ==>
      k in ToMap(CookiePairs(cookies)).value && ToMap(CookiePairs(cookies)).value[k] == v
  {
    var pairs := CookiePairs(cookies);
    var m := ToMap(pairs).value;
    forall k, v | ParsedFrom(cookies, (k, v)) ensures k in m && m[k] == v {
      assert (k, v) in pairs;
      var i :| 0 <= i < |pairs| && pairs[i] == (k, v);
    }
  }

  /** Every key of the collected map comes from a parsed pair. */
  lemma CookieMapOnlyParsed(cookies: seq<string>)
    requires ToMap(CookiePairs(cookies)).Some?
    ensures forall k :: k in ToMap(CookiePairs(cookies)).value ==> exists v :: ParsedFrom(cookies, (k, v))
  {
    var pairs := CookiePairs(cookies);
    var m := ToMap(pairs).value;
    forall k | k in m ensures exists v :: ParsedFrom(cookies, (k, v)) {
      assert k in KeysOf(pairs);
      var i :| 0 <= i < |pairs| && pairs[i].0 == k;
      assert pairs[i] in pairs;
      assert ParsedFrom(cookies, (k, pairs[i].1));
    }
  }

  /** check: a missing Cookie header (null list) is not authenticated; a
      repeated cookie key escapes as an exception, modelled as None;
      otherwise the answer is whether the auth cookie holds an accepted
      token. */
  function Check(cookies: Option<seq<string>>): (r: Option<bool>)
    ensures cookies.None? ==> r == Some(false)
    ensures cookies.Some? ==> (r.None? <==> RepeatsKey(cookies.value))
  {
    match cookies
    case None => Some(false)
    case Some(c) =>
      match CookieMap(c)
      case None => None
      case Some(m) => Some(AuthenticationKey in m && m[AuthenticationKey] in AuthenticatedValues)
  }

  /** Some retained entry carries the auth key and an accepted token. */
  predicate HasToken(cookies: seq<string>) {
    exists e :: e in cookies && Retained(e)
      && SplitCookie(e).0 == AuthenticationKey
      && SplitCookie(e).1 in AuthenticatedValues
  }

  /** With no repeated key, the check passes exactly when some cookie entry
      is `flight_reservation_auth=<token>` for an accepted token. */
  lemma CheckMeansToken(cookies: seq<string>)
    requires !RepeatsKey(cookies)
    ensures Check(Some(cookies)) == Some(HasToken(cookies))
  {
    DistinctExactlyWithoutRepeats(cookies);
    var m := CookieMap(cookies).value;
    if HasToken(cookies) {
      var e :| e in cookies && Retained(e)
        && SplitCookie(e).0 == AuthenticationKey
        && SplitCookie(e).1 in AuthenticatedValues;
      assert ParsedFrom(cookies, SplitCookie(e));
    } else if AuthenticationKey in m {
      var v :| ParsedFrom(cookies, (AuthenticationKey, v));
      var e :| e in cookies && Retained(e) && SplitCookie(e) == (AuthenticationKey, v);
    }
  }

  /** A list in which no entry survives the filter (the empty list among
      them) is never authenticated. */
  lemma {:induction false} NothingRetainedRejected(cookies: seq<string>)
    requires forall j :: 0 <= j < |cookies| ==> !Retained(cookies[j])
    ensures Check(Some(cookies)) == Some(false)
  {
    if cookies != [] {
      var init := cookies[..|cookies| - 1];
      assert forall j :: 0 <= j < |init| ==> !Retained(init[j]) by {
        forall j | 0 <= j < |init| ensures !Retained(init[j]) {
          assert init[j] == cookies[j];
        }
      }
      NothingRetainedRejected(init);
    }
  }

  /** The same cookie sent twice repeats its key, so the check throws; an
      entry of two code points, one outside the Basic Multilingual Plane,
      is three UTF-16 units long and survives the length filter. */
  lemma CookieExamples()
    ensures Check(Some(["a=b", "a=b"])) == None
    ensures Retained("=\U{1F600}")
  {
    var c := ["a=b", "a=b"];
    assert Retained(c[0]) && Retained(c[1]);
    assert EntryKeys(c)[0].Some? && EntryKeys(c)[0] == EntryKeys(c)[1];
    assert Supplementary("=\U{1F600}") == {1};
  }
}

=== FILE: flight_sort.dfy ===
/** `flights.sort(Collections.reverseOrder())` in RealAirlinesService:
    List.sort is a stable sort, and the reverse of Flight's descending natural
    order is ascending price, so the cheapest flight comes first and flights
    of equal price keep the order in which they were collected. */
module FlightSort {
  import opened Flights

  /** Collections.reverseOrder(): compare(a, b) is b.compareTo(a). */
  function ReverseOrder(a: Flight, b: Flight): (r: int)
    ensures r < 0 <==> a.priceUSD < b.priceUSD
    ensures r == 0 <==> a.priceUSD == b.priceUSD
    ensures r > 0 <==> a.priceUSD > b.priceUSD
  {
    CompareTo(b, a)
  }

  /** Sorted according to the reverse comparator: no later element compares
      below an earlier one. */
  predicate Sorted(s: seq<Flight>) {
    forall i, j :: 0 <= i < j < |s| ==> ReverseOrder(s[i], s[j]) <= 0
  }

  /** Ascending price, stated without any comparator. */
  predicate CheapestFirst(s: seq<Flight>) {
    forall i, j :: 0 <= i < j < |s| ==> s[i].priceUSD <= s[j].priceUSD
  }

  /** Sorted by the reverse order means cheapest first, and the same list read
      in the natural order of Flight is sorted backwards. */
  lemma SortedMeansCheapestFirst(s: seq<Flight>)
    ensures Sorted(s) <==> CheapestFirst(s)
    ensures Sorted(s) <==> forall i, j :: 0 <= i < j < |s| ==> CompareTo(s[i], s[j]) >= 0
  {
  }

  /** The flights of `s` priced exactly `p`, in their order in `s`: the
      elements a comparator-based sort must treat as ties. */
  function WithPrice(s: seq<Flight>, p: real): (t: seq<Flight>)
    ensures |t| <= |s|
  {
    if s == [] then []
    else (if s[0].priceUSD == p then [s[0]] else []) + WithPrice(s[1..], p)
  }

  lemma {:induction false} WithPriceMembers(s: seq<Flight>, p: real, f: Flight)
    ensures f in WithPrice(s, p) <==> f in s && f.priceUSD == p
  {
    if s != [] {
      WithPriceMembers(s[1..], p, f);
      assert s == [s[0]] + s[1..];
    }
  }

  /** Keeps the relative order of ties: for every price, the flights at that
      price appear in the same order in `t` as in `s`. */
  ghost predicate TiesInOrder(s: seq<Flight>, t: seq<Flight>) {
    forall p :: WithPrice(t, p) == WithPrice(s, p)
  }

  /** A flight no dearer than anything in a sorted list may go in front. */
  lemma SortedCons(y: Flight, t: seq<Flight>)
    requires Sorted(t)
    requires forall f :: f in t ==> y.priceUSD <= f.priceUSD
    ensures Sorted([y] + t)
  {
    var r := [y] + t;
    forall i, j | 0 <= i < j < |r| ensures ReverseOrder(r[i], r[j]) <= 0 {
      if i == 0 {
        assert r[j] == t[j - 1];
      } else {
        assert r[i] == t[i - 1] && r[j] == t[j - 1];
      }
    }
  }

  /** Inserts `x` into a sorted list after every flight strictly cheaper
      than it and before the rest, so `x` precedes its ties. */
  function Insert(x: Flight, s: seq<Flight>): (r: seq<Flight>)
    ensures multiset(r) == multiset(s) + multiset{x}
  {
    if s == [] then [x]
    else if ReverseOrder(s[0], x) < 0 then
      assert s == [s[0]] + s[1..];
      [s[0]] + Insert(x, s[1..])
    else [x] + s
  }

  lemma {:induction false} InsertSorted(x: Flight, s: seq<Flight>)
    requires Sorted(s)
    ensures Sorted(Insert(x, s))
  {
    if s == [] {
    } else if ReverseOrder(s[0], x) < 0 {
      var rest := Insert(x, s[1..]);
      assert Sorted(s[1..]) by {
        forall i, j | 0 <= i < j < |s[1..]| ensures ReverseOrder(s[1..][i], s[1..][j]) <= 0 {
          assert s[1..][i] == s[i + 1] && s[1..][j] == s[j + 1];
        }
      }
      InsertSorted(x, s[1..]);
      forall f | f in rest ensures s[0].priceUSD <= f.priceUSD {
        assert f in multiset(rest);
        if f != x {
          assert f in multiset(s[1..]);
          var k :| 0 <= k < |s[1..]| && s[1..][k] == f;
          assert s[k + 1] == f;
        }
      }
      SortedCons(s[0], rest);
    } else {
      forall f | f in s ensures x.priceUSD <= f.priceUSD {
        var k :| 0 <= k < |s| && s[k] == f;
      }
      SortedCons(x, s);
    }
  }

  /** Stable insertion sort with the reverse comparator. */
  function Sort(s: seq<Flight>): (r: seq<Flight>)
    ensures Sorted(r)
    ensures multiset(r) == multiset(s)
  {
    if s == [] then []
    else
      assert s == [s[0]] + s[1..];
      InsertSorted(s[0], Sort(s[1..]));
      Insert(s[0], Sort(s[1..]))
  }

  /** Splits WithPrice at the head of a list. */
  lemma WithPriceCons(y: Flight, t: seq<Flight>, p: real)
    ensures WithPrice([y] + t, p) == (if y.priceUSD == p then [y] else []) + WithPrice(t, p)
  {
    assert ([y] + t)[1..] == t;
  }

  /** Passing a strictly cheaper flight does not reorder the ties of `x`. */
  lemma PassCheaper(a: Flight, x: Flight, rest: seq<Flight>, t: seq<Flight>, p: real)
    requires a.priceUSD < x.priceUSD
    requires WithPrice(rest, p) == WithPrice([x] + t, p)
    ensures WithPrice([a] + rest, p) == WithPrice([x] + ([a] + t), p)
  {
    var tail := WithPrice(t, p);
    WithPriceCons(a, rest, p);
    WithPriceCons(x, [a] + t, p);
    WithPriceCons(x, t, p);
    WithPriceCons(a, t, p);
    if a.priceUSD == p {
      assert WithPrice([x] + t, p) == tail;
      assert WithPrice([a] + rest, p) == [a] + tail;
      assert WithPrice([x] + ([a] + t), p) == [a] + tail;
    } else {
      var mid := if x.priceUSD == p then [x] else [];
      assert WithPrice([a] + rest, p) == mid + tail;
      assert WithPrice([a] + t, p) == tail;
    }
  }

  lemma {:induction false} InsertTies(x: Flight, s: seq<Flight>, p: real)
    ensures WithPrice(Insert(x, s), p) == WithPrice([x] + s, p)
  {
    if s == [] {
    } else if ReverseOrder(s[0], x) < 0 {
      InsertTies(x, s[1..], p);
      PassCheaper(s[0], x, Insert(x, s[1..]), s[1..], p);
      assert [s[0]] + s[1..] == s;
    } else {
      assert Insert(x, s) == [x] + s;
    }
  }

  /** The sort is stable: ties keep their collected order. */
  lemma {:induction false} SortStable(s: seq<Flight>)
    ensures TiesInOrder(s, Sort(s))
  {
    if s != [] {
      SortStable(s[1..]);
      forall p ensures WithPrice(Sort(s), p) == WithPrice(s, p) {
        InsertTies(s[0], Sort(s[1..]), p);
        WithPriceCons(s[0], Sort(s[1..]), p);
        WithPriceCons(s[0], s[1..], p);
        assert [s[0]] + s[1..] == s;
      }
    }
  }

  lemma SortedTail(s: seq<Flight>)
    requires Sorted(s) && s != []
    ensures Sorted(s[1..])
    ensures forall f :: f in s ==> s[0].priceUSD <= f.priceUSD
  {
    forall i, j | 0 <= i < j < |s[1..]| ensures ReverseOrder(s[1..][i], s[1..][j]) <= 0 {
      assert s[1..][i] == s[i + 1] && s[1..][j] == s[j + 1];
    }
    forall f | f in s ensures s[0].priceUSD <= f.priceUSD {
      var k :| 0 <= k < |s| && s[k] == f;
    }
  }

  /** Dropping a common first flight keeps two lists' ties equal. */
  lemma DropCommonHead(x: Flight, a: seq<Flight>, b: seq<Flight>)
    requires forall p :: WithPrice([x] + a, p) == WithPrice([x] + b, p)
    ensures forall p :: WithPrice(a, p) == WithPrice(b, p)
  {
    forall p ensures WithPrice(a, p) == WithPrice(b, p) {
      WithPriceCons(x, a, p);
      WithPriceCons(x, b, p);
      assert WithPrice([x] + a, p) == WithPrice([x] + b, p);
      if x.priceUSD == p {
        assert WithPrice(a, p) == WithPrice([x] + a, p)[1..];
        assert WithPrice(b, p) == WithPrice([x] + b, p)[1..];
      } else {
        assert WithPrice([x] + a, p) == [] + WithPrice(a, p) == WithPrice(a, p);
        assert WithPrice([x] + b, p) == [] + WithPrice(b, p) == WithPrice(b, p);
      }
    }
  }

  /** A flight of `a` is a flight of `b` when the two have the same ties. */
  lemma SameTiesSameMembers(a: seq<Flight>, b: seq<Flight>, f: Flight)
    requires forall p :: WithPrice(a, p) == WithPrice(b, p)
    requires f in a
    ensures f in b
  {
    WithPriceMembers(a, f.priceUSD, f);
    WithPriceMembers(b, f.priceUSD, f);
  }

  /** Two sorted non-empty lists with the same ties start with the same
      flight: both start with a cheapest flight, the first one at its price. */
  lemma SameHead(a: seq<Flight>, b: seq<Flight>)
    requires Sorted(a) && Sorted(b) && a != [] && b != []
    requires forall p :: WithPrice(a, p) == WithPrice(b, p)
    ensures a[0] == b[0]
  {
    var x, y := a[0], b[0];
    SortedTail(a);
    SortedTail(b);
    SameTiesSameMembers(a, b, x);
    SameTiesSameMembers(b, a, y);
    var m := x.priceUSD;
    assert y.priceUSD == m;
    FirstTie(a);
    FirstTie(b);
    assert WithPrice(a, m) == WithPrice(b, m);
    assert x == WithPrice(a, m)[0];
    assert y == WithPrice(b, m)[0];
  }

  lemma FirstTie(a: seq<Flight>)
    requires a != []
    ensures WithPrice(a, a[0].priceUSD) == [a[0]] + WithPrice(a[1..], a[0].priceUSD)
  {
  }

  /** Two sorted lists that agree on the order of the flights at every price
      are the same list. */
  lemma {:induction false} SortedTiesUnique(a: seq<Flight>, b: seq<Flight>)
    requires Sorted(a) && Sorted(b)
    requires forall p :: WithPrice(a, p) == WithPrice(b, p)
    ensures a == b
    decreases |a| + |b|
  {
    if a == [] || b == [] {
      if a != [] {
        WithPriceMembers(a, a[0].priceUSD, a[0]);
        WithPriceMembers(b, a[0].priceUSD, a[0]);
      } else if b != [] {
        WithPriceMembers(a, b[0].priceUSD, b[0]);
        WithPriceMembers(b, b[0].priceUSD, b[0]);
      }
    } else {
      SameHead(a, b);
      assert a == [a[0]] + a[1..] && b == [a[0]] + b[1..];
      DropCommonHead(a[0], a[1..], b[1..]);
      SortedTail(a);
      SortedTail(b);
      SortedTiesUnique(a[1..], b[1..]);
    }
  }

  /** List.sort promises a sorted list that keeps ties in order; exactly one
      list does that, so the insertion sort above is the only possible
      outcome of the library sort. */
  lemma SortIsTheStableSort(s: seq<Flight>, t: seq<Flight>)
    requires Sorted(t) && TiesInOrder(s, t)
    ensures t == Sort(s)
  {
    SortStable(s);
    SortedTiesUnique(t, Sort(s));
  }
}

=== FILE: flights.dfy ===
/** model/Flight.java: a backend's offer, its price canonicalisation and its
    natural ordering. */
module Flights {

  /** java.time.LocalDate, carried through from the query and never
      inspected by the gateway. */
  datatype Date = Date(year: int, month: int, day: int)

  datatype Flight = Flight(
    id: int,
    airlineName: string,
    priceUSD: real,
    numberOfFreeBags: int,
    numberOfAvailableSeats: int,
    date: Date)

  /** A price that is a whole number of cents. */
  predicate IsWholeCents(p: real) {
    (p * 100.0).Floor as real == p * 100.0
  }

  /** The invariant every Flight keeps: its price is canonical. */
  predicate WellFormed(f: Flight) {
    IsWholeCents(f.priceUSD)
  }

  /** `Math.round(p * 100.0) / 100.0` over exact reals, where
      `Math.round(x)` is the integer floor of `x + 1/2` (halves round up). */
  function RoundToCents(p: real): (r: real)
    ensures IsWholeCents(r)
    ensures p - 0.005 < r <= p + 0.005
    ensures IsWholeCents(p) ==> r == p
  {
    var k := (p * 100.0 + 0.5).Floor;
    CentsOfWhole(k);
    assert k as real <= p * 100.0 + 0.5 < k as real + 1.0;
    assert IsWholeCents(p) ==> k == (p * 100.0).Floor;
    k as real * 0.01
  }

  /** A whole number of cents, read back as dollars, is a whole-cents price. */
  lemma CentsOfWhole(k: int)
    ensures (k as real * 0.01) * 100.0 == k as real
    ensures IsWholeCents(k as real * 0.01)
  {
    assert (k as real).Floor == k;
  }

  /** Rounding lands on the nearest cent: no whole-cent price is closer to
      the input than the rounded one. */
  lemma RoundToCentsNearest(p: real, c: real)
    requires IsWholeCents(c)
    ensures Dist(RoundToCents(p), p) <= Dist(c, p)
  {
    var r := RoundToCents(p);
    var k := (r * 100.0).Floor;
    var m := (c * 100.0).Floor;
    assert r * 100.0 == k as real;
    assert c * 100.0 == m as real;
    if m > k {
      assert (m as real) >= k as real + 1.0;
    } else if m < k {
      assert (m as real) <= k as real - 1.0;
    }
  }

  function Dist(a: real, b: real): real {
    if a < b then b - a else a - b
  }

  /** Rounding twice is rounding once. */
  lemma RoundToCentsIdempotent(p: real)
    ensures RoundToCents(RoundToCents(p)) == RoundToCents(p)
  {
  }

  /** The six-argument constructor: every field is stored as given except the
      price, which is stored rounded to cents. */
  function NewFlight(id: int, airlineName: string, priceUSD: real,
                     numberOfFreeBags: int, numberOfAvailableSeats: int, date: Date): (f: Flight)
    ensures WellFormed(f)
    ensures priceUSD - 0.005 < f.priceUSD <= priceUSD + 0.005
    ensures IsWholeCents(priceUSD) ==> f.priceUSD == priceUSD
    ensures f.id == id && f.airlineName == airlineName && f.date == date
    ensures f.numberOfFreeBags == numberOfFreeBags && f.numberOfAvailableSeats == numberOfAvailableSeats
  {
    Flight(id, airlineName, RoundToCents(priceUSD), numberOfFreeBags, numberOfAvailableSeats, date)
  }

  /** setPriceUSD: stores the price rounded to cents and leaves every other
      field alone. */
  function SetPriceUSD(f: Flight, priceUSD: real): (g: Flight)
    ensures WellFormed(g)
    ensures priceUSD - 0.005 < g.priceUSD <= priceUSD + 0.005
    ensures g.(priceUSD := f.priceUSD) == f
  {
    f.(priceUSD := RoundToCents(priceUSD))
  }

  /** Setting a flight's own price again changes nothing. */
  lemma SetPriceUSDIdempotent(f: Flight)
    requires WellFormed(f)
    ensures SetPriceUSD(f, f.priceUSD) == f
  {
  }

  /** setId: the id becomes `id`, and putting the old id back gives the old
      flight, so no other field moved. */
  function SetId(f: Flight, id: int): (g: Flight)
    ensures g.id == id && g.(id := f.id) == f
  {
    f.(id := id)
  }

  function SetAirlineName(f: Flight, airlineName: string): (g: Flight)
    ensures g.airlineName == airlineName && g.(airlineName := f.airlineName) == f
  {
    f.(airlineName := airlineName)
  }

  function SetNumberOfFreeBags(f: Flight, n: int): (g: Flight)
    ensures g.numberOfFreeBags == n && g.(numberOfFreeBags := f.numberOfFreeBags) == f
  {
    f.(numberOfFreeBags := n)
  }

  function SetNumberOfAvailableSeats(f: Flight, n: int): (g: Flight)
    ensures g.numberOfAvailableSeats == n && g.(numberOfAvailableSeats := f.numberOfAvailableSeats) == f
  {
    f.(numberOfAvailableSeats := n)
  }

  function SetDate(f: Flight, date: Date): (g: Flight)
    ensures g.date == date && g.(date := f.date) == f
  {
    f.(date := date)
  }

  /** The setters other than setPriceUSD never touch the price, so they keep
      the whole-cents invariant. */
  lemma SettersPreserveWellFormed(f: Flight, id: int, name: string, n: int, date: Date)
    requires WellFormed(f)
    ensures WellFormed(SetId(f, id)) && WellFormed(SetAirlineName(f, name))
    ensures WellFormed(SetNumberOfFreeBags(f, n)) && WellFormed(SetNumberOfAvailableSeats(f, n))
    ensures WellFormed(SetDate(f, date))
  {
  }

  /** compareTo: the natural order puts the dearer flight first. */
  function CompareTo(a: Flight, b: Flight): (r: int)
    ensures r == 1 <==> a.priceUSD < b.priceUSD
    ensures r == -1 <==> a.priceUSD > b.priceUSD
    ensures r == 0 <==> a.priceUSD == b.priceUSD
  {
    if a.priceUSD < b.priceUSD then 1
    else if a.priceUSD > b.priceUSD then -1
    else 0
  }

  /** sgn(a.compareTo(b)) == -sgn(b.compareTo(a)). */
  lemma CompareToAntisymmetric(a: Flight, b: Flight)
    ensures CompareTo(a, b) == -CompareTo(b, a)
  {
  }

  /** The natural order is transitive, and flights that compare equal compare
      alike with everything else: a total preorder on price. */
  lemma CompareToTransitive(a: Flight, b: Flight, c: Flight)
    ensures CompareTo(a, b) <= 0 && CompareTo(b, c) <= 0 ==> CompareTo(a, c) <= 0
    ensures CompareTo(a, b) < 0 && CompareTo(b, c) < 0 ==> CompareTo(a, c) < 0
    ensures CompareTo(a, b) == 0 ==> CompareTo(a, c) == CompareTo(b, c)
  {
  }

  /** Only the price takes part: id, airline, bags, seats and date do not. */
  lemma CompareToPriceOnly(a: Flight, b: Flight, c: Flight)
    requires a.priceUSD == b.priceUSD
    ensures CompareTo(a, b) == 0
    ensures CompareTo(a, c) == CompareTo(b, c) && CompareTo(c, a) == CompareTo(c, b)
  {
  }
}

=== FILE: http_exchange.dfy ===
/** The part of com.sun.net.httpserver the handlers read: the request method,
    the request headers and the decoded query parameters, and what a call to
    `handle` leaves behind. */
module HttpExchange {
  import opened Wrappers
  import opened Responses

  /** A request as received: header lines in arrival order, query parameters
      already split and decoded, and the body text. */
  datatype Request = Request(
    requestMethod: string,
    headers: seq<(string, string)>,
    query: seq<(string, string)>,
    body: string)

  /** What one `handle` call does: the reply it writes (None when an
      exception escapes before any reply) and the service call it makes, if
      any. */
  datatype Handled<C> = Handled(reply: Option<Reply>, call: Option<C>)

  function AsciiUpper(c: char): char {
    if 'a' <= c <= 'z' then (c as int - 32) as char else c
  }

  function AsciiLower(c: char): char {
    if 'A' <= c <= 'Z' then (c as int + 32) as char else c
  }

  /** Two characters agree up to ASCII case whichever case they are
      brought to. */
  lemma UpperAgreesWithLower(x: char, y: char)
    ensures AsciiUpper(x) == AsciiUpper(y) <==> AsciiLower(x) == AsciiLower(y)
  {
  }

  /** Headers stores names with the first character in upper case and the
      rest in lower case (ASCII letters only), and looks names up the same
      way, so header names match case-insensitively. */
  function NormalizeHeaderName(name: string): (n: string)
    ensures |n| == |name|
    ensures n != [] ==> n[0] == AsciiUpper(name[0]) && !('a' <= n[0] <= 'z')
    ensures forall i :: 0 < i < |n| ==> n[i] == AsciiLower(name[i]) && !('A' <= n[i] <= 'Z')
  {
    seq(|name|, i requires 0 <= i < |name| => if i == 0 then AsciiUpper(name[0]) else AsciiLower(name[i]))
  }

  /** A stored name is already in normal form. */
  lemma NormalizeHeaderNameIdempotent(name: string)
    ensures NormalizeHeaderName(NormalizeHeaderName(name)) == NormalizeHeaderName(name)
  {
  }

  predicate SameHeader(a: string, b: string) {
    NormalizeHeaderName(a) == NormalizeHeaderName(b)
  }

  /** Two header names denote the same header exactly when they have the
      same length and agree letter by letter up to ASCII case. */
  lemma SameHeaderIgnoresCase(a: string, b: string)
    ensures SameHeader(a, b) <==>
      |a| == |b| && forall i :: 0 <= i < |a| ==> AsciiLower(a[i]) == AsciiLower(b[i])
  {
    if SameHeader(a, b) {
      SameHeaderLetters(a, b);
    }
    if |a| == |b| && forall i :: 0 <= i < |a| ==> AsciiLower(a[i]) == AsciiLower(b[i]) {
      LettersSameHeader(a, b);
    }
  }

  lemma SameHeaderLetters(a: string, b: string)
    requires NormalizeHeaderName(a) == NormalizeHeaderName(b)
    ensures |a| == |b| && forall i :: 0 <= i < |a| ==> AsciiLower(a[i]) == AsciiLower(b[i])
  {
    var na, nb := NormalizeHeaderName(a), NormalizeHeaderName(b);
    forall i | 0 <= i < |a| ensures AsciiLower(a[i]) == AsciiLower(b[i]) {
      assert na[i] == nb[i];
      UpperAgreesWithLower(a[i], b[i]);
    }
  }

  lemma LettersSameHeader(a: string, b: string)
    requires |a| == |b| && forall i :: 0 <= i < |a| ==> AsciiLower(a[i]) == AsciiLower(b[i])
    ensures NormalizeHeaderName(a) == NormalizeHeaderName(b)
  {
    var na, nb := NormalizeHeaderName(a), NormalizeHeaderName(b);
    forall i | 0 <= i < |a| ensures na[i] == nb[i] {
      UpperAgreesWithLower(a[i], b[i]);
    }
  }

  /** The header lines as Headers stores them: every name in normal form,
      the lines in arrival order. */
  function Stored(headers: seq<(string, string)>): (st: seq<(string, string)>)
    ensures |st| == |headers|
    ensures forall i :: 0 <= i < |headers| ==> st[i] == (NormalizeHeaderName(headers[i].0), headers[i].1)
  {
    seq(|headers|, i requires 0 <= i < |headers| => (NormalizeHeaderName(headers[i].0), headers[i].1))
  }

  /** The values of the lines whose key is `key`, in list order. */
  function ValuesOf<K(==), V(!new)>(lines: seq<(K, V)>, key: K): (vs: seq<V>)
    ensures |vs| <= |lines|
    ensures forall v :: v in vs <==> exists j :: 0 <= j < |lines| && lines[j].0 == key && lines[j].1 == v
  {
    if lines == [] then []
    else
      var init := lines[..|lines| - 1];
      var last := lines[|lines| - 1];
      assert forall j :: 0 <= j < |init| ==> init[j] == lines[j];
      ValuesOf(init, key) + (if last.0 == key then [last.1] else [])
  }

  /** The values of two runs of lines are those of the first run, then
      those of the second: list order is kept. */
  lemma {:induction false} ValuesOfAppend<K, V(!new)>(a: seq<(K, V)>, b: seq<(K, V)>, key: K)
    ensures ValuesOf(a + b, key) == ValuesOf(a, key) + ValuesOf(b, key)
    decreases |b|
  {
    if b == [] {
      assert a + b == a;
    } else {
      var b' := b[..|b| - 1];
      assert (a + b)[..|a + b| - 1] == a + b';
      assert (a + b)[|a + b| - 1] == b[|b| - 1];
      ValuesOfAppend(a, b', key);
    }
  }

  /** Line `j` is the earliest line with key `key`. */
  predicate IsFirst<K(==), V>(lines: seq<(K, V)>, key: K, j: int) {
    && 0 <= j < |lines|
    && lines[j].0 == key
    && forall k :: 0 <= k < j ==> lines[k].0 != key
  }

  /** The first value comes from the earliest line with that key. */
  lemma {:induction false} FirstValueOfFirst<K, V(!new)>(lines: seq<(K, V)>, key: K)
    requires ValuesOf(lines, key) != []
    ensures exists j :: IsFirst(lines, key, j) && lines[j].1 == ValuesOf(lines, key)[0]
    decreases |lines|
  {
    var init, last := lines[..|lines| - 1], lines[|lines| - 1];
    if ValuesOf(init, key) != [] {
      FirstValueOfFirst(init, key);
      var j :| IsFirst(init, key, j) && init[j].1 == ValuesOf(init, key)[0];
      assert forall k :: 0 <= k <= j ==> lines[k] == init[k];
      assert IsFirst(lines, key, j);
    } else {
      forall k | 0 <= k < |init| ensures lines[k].0 != key {
        assert lines[k] == init[k];
        assert init[k].1 !in ValuesOf(init, key);
      }
      assert IsFirst(lines, key, |lines| - 1);
    }
  }

  /** Line `j` is the earliest line with the given name. */
  predicate IsFirstLine(headers: seq<(string, string)>, name: string, j: int) {
    && 0 <= j < |headers|
    && SameHeader(headers[j].0, name)
    && forall k :: 0 <= k < j ==> !SameHeader(headers[k].0, name)
  }

  /** The values of every header line with the given name, in arrival order:
      the list Headers.get returns. Its first element, what getFirst
      returns, is the value of the earliest such line. */
  function HeaderValues(headers: seq<(string, string)>, name: string): (vs: seq<string>)
    ensures |vs| <= |headers|
    ensures forall v :: v in vs <==> exists j :: 0 <= j < |headers| && SameHeader(headers[j].0, name) && headers[j].1 == v
    ensures vs != [] ==> exists j :: IsFirstLine(headers, name, j) && headers[j].1 == vs[0]
  {
    var st, key := Stored(headers), NormalizeHeaderName(name);
    assert forall j :: 0 <= j < |headers| ==> st[j].0 == NormalizeHeaderName(headers[j].0) && st[j].1 == headers[j].1;
    var vs := ValuesOf(st, key);
    if vs != [] then
      FirstStoredLine(headers, name);
      vs
    else vs
  }

  /** The first stored value with a name comes from the earliest line with
      that name. */
  lemma FirstStoredLine(headers: seq<(string, string)>, name: string)
    requires ValuesOf(Stored(headers), NormalizeHeaderName(name)) != []
    ensures exists j ::
      IsFirstLine(headers, name, j) && headers[j].1 == ValuesOf(Stored(headers), NormalizeHeaderName(name))[0]
  {
    var st, key := Stored(headers), NormalizeHeaderName(name);
    FirstValueOfFirst(st, key);
    var j :| IsFirst(st, key, j) && st[j].1 == ValuesOf(st, key)[0];
    assert IsFirstLine(headers, name, j) by {
      forall k | 0 <= k < j ensures !SameHeader(headers[k].0, name) {
        assert st[k].0 != key;
      }
    }
  }

  /** Arrival order is kept: the values of `a + b` are those of `a`, then
      those of `b`. */
  lemma HeaderValuesAppend(a: seq<(string, string)>, b: seq<(string, string)>, name: string)
    ensures HeaderValues(a + b, name) == HeaderValues(a, name) + HeaderValues(b, name)
  {
    assert Stored(a + b) == Stored(a) + Stored(b);
    ValuesOfAppend(Stored(a), Stored(b), NormalizeHeaderName(name));
  }

  /** Headers.containsKey: some line's name matches, ignoring ASCII case. */
  function ContainsHeader(headers: seq<(string, string)>, name: string): (b: bool)
    ensures b <==> exists j :: 0 <= j < |headers| && SameHeader(headers[j].0, name)
  {
    var vs := HeaderValues(headers, name);
    if vs != [] then true
    else
      assert forall j :: 0 <= j < |headers| && SameHeader(headers[j].0, name) ==> headers[j].1 in vs;
      false
  }

  /** Headers.get: null (None) for a header that was not sent. */
  function GetHeader(headers: seq<(string, string)>, name: string): (r: Option<seq<string>>)
    ensures r.None? <==> !ContainsHeader(headers, name)
    ensures r.Some? ==> r.value == HeaderValues(headers, name) && r.value != []
  {
    var vs := HeaderValues(headers, name);
    if vs == [] then None else Some(vs)
  }

  /** `get(name).contains(value)`: some line of that header has exactly that
      value; "application/json, text/plain" on one line does not count as
      "application/json". */
  function HeaderHasValue(headers: seq<(string, string)>, name: string, value: string): (b: bool)
    ensures b <==> exists j :: 0 <= j < |headers| && SameHeader(headers[j].0, name) && headers[j].1 == value
  {
    value in HeaderValues(headers, name)
  }
}

=== FILE: java_collections.dfy ===
/** Collectors.toMap(keyMapper, valueMapper) without a merge function, which
    both the cookie parser and the query-parameter parser rely on. */
module JavaCollections {
  import opened Wrappers

  /** No key occurs twice. */
  predicate DistinctKeys<K(==), V>(pairs: seq<(K, V)>) {
    forall i, j :: 0 <= i < j < |pairs| ==> pairs[i].0 != pairs[j].0
  }

  function KeysOf<K, V>(pairs: seq<(K, V)>): set<K> {
    set i | 0 <= i < |pairs| :: pairs[i].0
  }

  /** Collects key/value pairs into a map. A key seen twice makes the
      collector throw IllegalStateException, modelled as None. */
  function ToMap<K(==), V>(pairs: seq<(K, V)>): (r: Option<map<K, V>>)
    ensures r.Some? <==> DistinctKeys(pairs)
    ensures r.Some? ==> r.value.Keys == KeysOf(pairs)
    ensures r.Some? ==> forall i :: 0 <= i < |pairs| ==> r.value[pairs[i].0] == pairs[i].1
  {
    if pairs == [] then Some(map[])
    else
      var init := pairs[..|pairs| - 1];
      var (k, v) := pairs[|pairs| - 1];
      match ToMap(init)
      case None => None
      case Some(m) =>
        if k in m then None else Some(m[k := v])
  }

  /** A list with one more pair keeps distinct keys exactly when the new
      key is not among the old ones. */
  lemma DistinctKeysSnoc<K, V>(pairs: seq<(K, V)>, kv: (K, V))
    ensures DistinctKeys(pairs + [kv]) <==> DistinctKeys(pairs) && kv.0 !in KeysOf(pairs)
  {
    var all := pairs + [kv];
    if DistinctKeys(all) {
      forall i, j | 0 <= i < j < |pairs| ensures pairs[i].0 != pairs[j].0 {
        assert all[i] == pairs[i] && all[j] == pairs[j];
      }
    }
    if kv.0 in KeysOf(pairs) {
      var i :| 0 <= i < |pairs| && pairs[i].0 == kv.0;
      assert all[i].0 == all[|pairs|].0;
    }
    if DistinctKeys(pairs) && kv.0 !in KeysOf(pairs) {
      forall i, j | 0 <= i < j < |all| ensures all[i].0 != all[j].0 {
        if j == |pairs| {
          assert all[i] == pairs[i];
        } else {
          assert all[i] == pairs[i] && all[j] == pairs[j];
        }
      }
    }
  }

  /** Two positions carry the same present key. */
  predicate RepeatsSome<K(==)>(ks: seq<Option<K>>) {
    exists i, j :: 0 <= i < j < |ks| && ks[i].Some? && ks[i] == ks[j]
  }

  /** A list with one more entry repeats a key exactly when the old list
      did or the new entry is a present key already there. */
  lemma RepeatsSomeSnoc<K>(ks: seq<Option<K>>, k: Option<K>)
    ensures RepeatsSome(ks + [k]) <==> RepeatsSome(ks) || (k.Some? && k in ks)
  {
    var all := ks + [k];
    if RepeatsSome(all) {
      var i, j :| 0 <= i < j < |all| && all[i].Some? && all[i] == all[j];
      assert all[i] == ks[i];
      if j < |ks| {
        assert all[j] == ks[j];
      }
    }
    if RepeatsSome(ks) {
      var i, j :| 0 <= i < j < |ks| && ks[i].Some? && ks[i] == ks[j];
      assert all[i] == ks[i] && all[j] == ks[j];
    }
    if k.Some? && k in ks {
      var i :| 0 <= i < |ks| && ks[i] == k;
      assert all[i] == ks[i] && all[|ks|] == k;
    }
  }
}

=== FILE: java_numbers.dfy ===
/** Decimal text and Java's 64-bit `long`: Long.parseLong, which reads a
    backend's confirmation number, and String.valueOf(long), which writes it
    back to the client. Digits are the ASCII digits '0'..'9'. */
module JavaNumbers {
  import opened Wrappers

  const MinLong: int := -0x8000_0000_0000_0000
  const MaxLong: int := 0x7FFF_FFFF_FFFF_FFFF

  /** The values of a Java `long`. */
  type Long = n: int | MinLong <= n <= MaxLong

  predicate IsDigit(c: char) {
    '0' <= c <= '9'
  }

  predicate AllDigits(s: string) {
    forall i :: 0 <= i < |s| ==> IsDigit(s[i])
  }

  function DigitValue(c: char): (d: nat)
    requires IsDigit(c)
    ensures d < 10
  {
    c as int - '0' as int
  }

  function DigitChar(d: nat): (c: char)
    requires d < 10
    ensures IsDigit(c) && DigitValue(c) == d
  {
    ('0' as int + d) as char
  }

  /** The number a string of decimal digits denotes, most significant first. */
  function DigitsValue(s: string): nat
    requires AllDigits(s)
  {
    if s == [] then 0 else DigitsValue(s[..|s| - 1]) * 10 + DigitValue(s[|s| - 1])
  }

  /** The shortest decimal numeral of a natural number (no leading zeros). */
  function NatToDigits(n: nat): (s: string)
    ensures 0 < |s| && AllDigits(s)
    ensures |s| > 1 ==> s[0] != '0'
    decreases n
  {
    if n < 10 then [DigitChar(n)] else NatToDigits(n / 10) + [DigitChar(n % 10)]
  }

  lemma {:induction false} NatToDigitsValue(n: nat)
    ensures DigitsValue(NatToDigits(n)) == n
    decreases n
  {
    if n >= 10 {
      var s := NatToDigits(n);
      NatToDigitsValue(n / 10);
      assert s[..|s| - 1] == NatToDigits(n / 10);
    }
  }

  /** String.valueOf(long): an optional minus sign followed by the shortest
      decimal numeral of the magnitude. */
  function LongToString(n: int): (s: string)
    ensures 0 < |s|
    ensures n < 0 <==> s[0] == '-'
    ensures AllDigits(if n < 0 then s[1..] else s)
    ensures var d := if n < 0 then s[1..] else s; 0 < |d| && (|d| > 1 ==> d[0] != '0')
  {
    if n < 0 then "-" + NatToDigits(-n) else NatToDigits(n)
  }

  /** Long.parseLong: an optional '+' or '-', then at least one digit, and a
      value that fits in a `long`; anything else raises
      NumberFormatException, modelled as None. */
  function ParseLong(s: string): (r: Option<int>)
    ensures r.Some? ==> MinLong <= r.value <= MaxLong
    ensures r.Some? ==> AllDigits(s) || (s[0] in "+-" && AllDigits(s[1..]))
    ensures s == [] || IsBareSign(s) ==> r == None
    ensures s != [] && AllDigits(s) ==>
      r == (if DigitsValue(s) <= MaxLong then Some(DigitsValue(s)) else None)
    ensures |s| > 1 && s[0] == '+' && AllDigits(s[1..]) ==>
      r == (if DigitsValue(s[1..]) <= MaxLong then Some(DigitsValue(s[1..])) else None)
    ensures |s| > 1 && s[0] == '-' && AllDigits(s[1..]) ==>
      r == (if DigitsValue(s[1..]) <= -MinLong then Some(-(DigitsValue(s[1..]) as int)) else None)
  {
    if s == [] then None
    else
      var negative := s[0] == '-';
      var digits := if s[0] == '-' || s[0] == '+' then s[1..] else s;
      if digits == [] || !AllDigits(digits) then None
      else
        var magnitude: int := DigitsValue(digits);
        var value := if negative then -magnitude else magnitude;
        if MinLong <= value <= MaxLong then Some(value) else None
  }

  /** A sign with no digits after it. */
  predicate IsBareSign(s: string) {
    s == "+" || s == "-"
  }

  /** What the reservation handler writes is what the gateway reads back:
      parsing the decimal text of any `long` yields that `long`. */
  lemma {:induction false} ParseLongToString(n: int)
    requires MinLong <= n <= MaxLong
    ensures ParseLong(LongToString(n)) == Some(n)
  {
    if n < 0 {
      var d := NatToDigits(-n);
      NatToDigitsValue(-n);
      assert DigitsValue(d) == -n;
      ParseNegative(d);
      assert LongToString(n) == "-" + d;
    } else {
      var d := NatToDigits(n);
      NatToDigitsValue(n);
      assert DigitsValue(d) == n;
      ParseUnsigned(d);
      assert LongToString(n) == d;
    }
  }

  /** A minus sign and digits parse to minus their value, when it fits. */
  lemma ParseNegative(d: string)
    requires d != [] && AllDigits(d) && DigitsValue(d) <= -MinLong
    ensures ParseLong("-" + d) == Some(-(DigitsValue(d) as int))
  {
    assert ("-" + d)[1..] == d;
  }

  /** Digits without a sign parse to their value, when it fits. */
  lemma ParseUnsigned(d: string)
    requires d != [] && AllDigits(d) && DigitsValue(d) <= MaxLong
    ensures ParseLong(d) == Some(DigitsValue(d))
  {
    assert IsDigit(d[0]);
  }

  /** Leading zeros do not change the value: "007" reads as 7. */
  lemma LeadingZeroIgnored(d: string)
    requires d != [] && AllDigits(d)
    ensures ParseLong("0" + d) == ParseLong(d)
    ensures ParseLong("-0" + d) == ParseLong("-" + d)
  {
    ZeroPrefixValue(d);
    assert ("-0" + d)[1..] == "0" + d;
    assert ("-" + d)[1..] == d;
  }

  lemma {:induction false} ZeroPrefixValue(d: string)
    requires AllDigits(d)
    ensures AllDigits("0" + d) && DigitsValue("0" + d) == DigitsValue(d)
  {
    var z := "0" + d;
    assert AllDigits(z) by {
      assert forall i :: 0 < i < |z| ==> z[i] == d[i - 1];
    }
    if d != [] {
      ZeroPrefixValue(d[..|d| - 1]);
      assert z[..|z| - 1] == "0" + d[..|d| - 1];
    }
  }

  /** One more than the largest `long` does not fit, with or without a
      plus sign; with a minus sign it is the smallest `long`. */
  lemma OverflowRejected(d: string)
    requires d != [] && AllDigits(d) && DigitsValue(d) == MaxLong + 1
    ensures ParseLong(d) == None && ParseLong("+" + d) == None
    ensures ParseLong("-" + d) == Some(MinLong)
  {
    assert ("+" + d)[1..] == d;
    assert ("-" + d)[1..] == d;
  }

  /** A string with a character other than a sign or a digit never parses;
      in particular trailing white space or a newline makes the body fail. */
  lemma NonDigitRejected(s: string, i: nat)
    requires 0 < i < |s| && !IsDigit(s[i])
    ensures ParseLong(s) == None
  {
    var digits := if s[0] == '-' || s[0] == '+' then s[1..] else s;
    if digits != [] {
      assert !IsDigit(digits[i - (|s| - |digits|)]);
    }
  }
}

=== FILE: java_text.dfy ===
/** The few java.lang.String and java.lang.Character operations the gateway's
    decisions rest on. Dafny strings are sequences of Unicode scalar values,
    that is, of Java code points. */
module JavaText {

  /** Character.isWhitespace: the space, line and paragraph separators other
      than the three no-break spaces (U+00A0, U+2007, U+202F), plus the ASCII
      controls U+0009..U+000D and U+001C..U+001F. */
  predicate IsWhitespace(c: char) {
    var n := c as int;
    || 0x09 <= n <= 0x0D
    || 0x1C <= n <= 0x20
    || n == 0x1680
    || 0x2000 <= n <= 0x2006
    || 0x2008 <= n <= 0x200A
    || n == 0x2028 || n == 0x2029
    || n == 0x205F
    || n == 0x3000
  }

  /** String.isBlank: empty, or white space only. */
  predicate IsBlank(s: string) {
    forall i :: 0 <= i < |s| ==> IsWhitespace(s[i])
  }

  /** String.endsWith: `s` is some prefix followed by `suffix`. */
  function EndsWith(s: string, suffix: string): (b: bool)
    ensures b <==> |suffix| <= |s| && s == s[..|s| - |suffix|] + suffix
  {
    |suffix| <= |s| && s[|s| - |suffix|..] == suffix
  }

  /** Any text followed by a suffix ends with that suffix. */
  lemma EndsWithAppend(p: string, suffix: string)
    ensures EndsWith(p + suffix, suffix)
  {
    assert (p + suffix)[..|p|] == p;
  }

  /** The positions of `s` holding a code point outside the Basic
      Multilingual Plane, which UTF-16 writes as a surrogate pair. */
  function Supplementary(s: string): set<int> {
    set i | 0 <= i < |s| && s[i] as int >= 0x1_0000
  }

  /** String.length(): the number of UTF-16 code units, so a code point
      outside the Basic Multilingual Plane counts twice. */
  function Utf16Length(s: string): (n: nat)
    ensures n == |s| + |Supplementary(s)|
    decreases |s|
  {
    if s == [] then 0
    else
      SupplementaryStep(s);
      Utf16Length(s[..|s| - 1]) + (if s[|s| - 1] as int < 0x1_0000 then 1 else 2)
  }

  /** The supplementary positions of `s` are those of all but its last
      character, plus the last position when that character is one. */
  lemma SupplementaryStep(s: string)
    requires s != []
    ensures |Supplementary(s)| ==
      |Supplementary(s[..|s| - 1])| + (if s[|s| - 1] as int < 0x1_0000 then 0 else 1)
  {
    var init, last := s[..|s| - 1], |s| - 1;
    var tail := if s[last] as int < 0x1_0000 then {} else {last};
    assert Supplementary(s) == Supplementary(init) + tail;
    assert last !in Supplementary(init);
  }

  /** String.indexOf(c) for a character that occurs: the position of its
      first occurrence. */
  function IndexOf(s: string, c: char): (i: nat)
    requires c in s
    ensures i < |s| && s[i] == c
    ensures c !in s[..i]
  {
    if s[0] == c then 0 else 1 + IndexOf(s[1..], c)
  }

  /** The character that Java's case-insensitive comparison identifies with
      `c` when one of them is an ASCII letter: ASCII upper case goes to lower
      case, and so do the four non-ASCII code points whose Java upper or lower
      case is an ASCII letter (dotted capital I, dotless small i, long s and
      the Kelvin sign). */
  function FoldCase(c: char): (f: char)
    ensures 'A' <= c <= 'Z' ==> f as int == c as int + 32
    ensures c as int < 0x80 && !('A' <= c <= 'Z') ==> f == c
    ensures !('A' <= f <= 'Z')
    ensures f != c ==> 'a' <= f <= 'z'
  {
    if 'A' <= c <= 'Z' then (c as int + 32) as char
    else if c == '\U{0130}' || c == '\U{0131}' then 'i'
    else if c == '\U{017F}' then 's'
    else if c == '\U{212A}' then 'k'
    else c
  }

  /** String.equalsIgnoreCase against a literal made of ASCII characters. */
  predicate EqualsIgnoreCase(s: string, word: string) {
    |s| == |word| && forall i :: 0 <= i < |s| ==> FoldCase(s[i]) == FoldCase(word[i])
  }

  /** The method check for a search: "GET" is matched by its eight ASCII
      spellings and nothing else. */
  lemma GetSpellings(s: string)
    ensures EqualsIgnoreCase(s, "GET") <==>
      |s| == 3 && s[0] in "gG" && s[1] in "eE" && s[2] in "tT"
  {
    if EqualsIgnoreCase(s, "GET") {
      assert FoldCase(s[0]) == 'g' && FoldCase(s[1]) == 'e' && FoldCase(s[2]) == 't';
    }
  }

  /** The method check for a reservation also accepts a long s (U+017F) in
      place of the S, because Java upper-cases it to 'S'. */
  lemma PostWithLongS()
    ensures EqualsIgnoreCase("po\U{017F}t", "POST")
    ensures !EqualsIgnoreCase("POSTS", "POST")
  {
  }

  /** isBlank follows Character.isWhitespace: line ends, tabs and the line
      separator are white space, while a no-break space is text. */
  lemma BlankExamples()
    ensures IsBlank("") && IsBlank(" \t\r\n\U{2028}")
    ensures !IsBlank("\U{00A0}") && !IsBlank(" x ")
  {
    assert !IsWhitespace("\U{00A0}"[0]);
    assert !IsWhitespace(" x "[1]);
  }
}

=== FILE: reservation_handler.dfy ===
/** handlers/FlightReservationHandler.java: the checks a reservation request
    goes through and how the confirmation number becomes the reply. */
module ReservationHandler {
  import opened Wrappers
  import opened JavaText
  import opened JavaNumbers
  import opened Responses
  import opened HttpExchange
  import opened Authentication
  import opened AirlinesService

  const WrongMethodMessage: string := "Use POST method for flight reservations"
  const UnauthorizedMessage: string := "Unauthorized User"
  const UnsupportedMediaMessage: string := "Request body is not in the JSON format"
  const FailedMessage: string := "Flight Reservation failed"

  /** The Content-Type check: the header was sent and one of its lines is
      exactly "application/json". */
  predicate BodyIsJson(headers: seq<(string, string)>) {
    ContainsHeader(headers, "Content-Type") && HeaderHasValue(headers, "Content-Type", "application/json")
  }

  /** handle: method, then the cookie check (a repeated cookie key throws),
      then Content-Type, then the body is decoded (a body Jackson rejects
      throws) and handed to the service once; a positive confirmation number
      is sent back as decimal text with 200, anything else is a 500. */
  function Handle(req: Request, parseRequest: string -> Option<TicketReservationRequest>,
                  service: TicketReservationRequest -> Long): (h: Handled<TicketReservationRequest>)
    ensures !EqualsIgnoreCase(req.requestMethod, "POST") ==>
      h == Handled(Some(SendResponse(405, WrongMethodMessage)), None)
    ensures (EqualsIgnoreCase(req.requestMethod, "POST")
             && Check(GetHeader(req.headers, "Cookie")) == Some(false)) ==>
      h == Handled(Some(SendResponse(401, UnauthorizedMessage)), None)
    ensures (EqualsIgnoreCase(req.requestMethod, "POST")
             && Check(GetHeader(req.headers, "Cookie")) == Some(true)
             && !BodyIsJson(req.headers)) ==>
      h == Handled(Some(SendResponse(415, UnsupportedMediaMessage)), None)
    ensures (EqualsIgnoreCase(req.requestMethod, "POST")
             && Check(GetHeader(req.headers, "Cookie")).None?) ==>
      h == Handled(None, None)
    ensures (EqualsIgnoreCase(req.requestMethod, "POST")
             && Check(GetHeader(req.headers, "Cookie")) == Some(true)
             && BodyIsJson(req.headers) && parseRequest(req.body).None?) ==>
      h == Handled(None, None)
    ensures h.call.Some? <==>
      && EqualsIgnoreCase(req.requestMethod, "POST")
      && Check(GetHeader(req.headers, "Cookie")) == Some(true)
      && BodyIsJson(req.headers)
      && parseRequest(req.body).Some?
    ensures h.call.Some? ==> h.call.value == parseRequest(req.body).value
    ensures h.call.Some? && service(h.call.value) > 0 ==>
      h.reply == Some(SendResponse(200, LongToString(service(h.call.value))))
    ensures h.call.Some? && service(h.call.value) <= 0 ==>
      h.reply == Some(SendResponse(500, FailedMessage))
    ensures h.reply.None? ==> h.call.None? && EqualsIgnoreCase(req.requestMethod, "POST")
    ensures h.reply.Some? ==> h.reply.value.status in {405, 401, 415, 200, 500}
  {
    if !EqualsIgnoreCase(req.requestMethod, "POST") then
      Handled(Some(SendResponse(405, WrongMethodMessage)), None)
    else
      match Check(GetHeader(req.headers, "Cookie"))
      case None => Handled(None, None)
      case Some(authenticated) =>
        if !authenticated then
          Handled(Some(SendResponse(401, UnauthorizedMessage)), None)
        else if !BodyIsJson(req.headers) then
          Handled(Some(SendResponse(415, UnsupportedMediaMessage)), None)
        else
          match parseRequest(req.body)
          case None => Handled(None, None)
          case Some(t) =>
            var confirmationNumber := service(t);
            if confirmationNumber > 0 then
              Handled(Some(SendResponse(200, LongToString(confirmationNumber))), Some(t))
            else
              Handled(Some(SendResponse(500, FailedMessage)), Some(t))
  }

  /** The text of a positive confirmation number is sent with one newline
      added, and that text parses back to the number. */
  lemma ConfirmationText(n: int)
    requires 0 < n <= MaxLong
    ensures SendResponse(200, LongToString(n)).body == LongToString(n) + "\n"
    ensures ParseLong(LongToString(n)) == Some(n)
  {
    var text := LongToString(n);
    var last := text[|text| - 1];
    assert !IsBlank(text) by {
      assert !IsWhitespace(last);
    }
    assert !EndsWith(text, "\n") by {
      assert text[|text| - 1..] == [last];
    }
    ParseLongToString(n);
  }

  /** A client reading a 200 reply gets the confirmation number back: the
      body is its decimal text and a newline, and the text parses to it. */
  lemma ConfirmationRoundTrip(req: Request, parseRequest: string -> Option<TicketReservationRequest>,
                              service: TicketReservationRequest -> Long)
    requires Handle(req, parseRequest, service).reply.Some?
    requires Handle(req, parseRequest, service).reply.value.status == 200
    ensures Handle(req, parseRequest, service).call.Some?
    ensures var n := service(Handle(req, parseRequest, service).call.value);
            var body := Handle(req, parseRequest, service).reply.value.body;
            && n > 0
            && body == LongToString(n) + "\n"
            && ParseLong(body[..|body| - 1]) == Some(n)
  {
    var h := Handle(req, parseRequest, service);
    assert h.call.Some?;
    var n := service(h.call.value);
    assert n > 0;
    ConfirmationText(n);
    var body := h.reply.value.body;
    assert body == LongToString(n) + "\n";
    assert body[..|body| - 1] == LongToString(n);
  }

  /** End to end: when the service is the gateway's own reservation service,
      a request naming an airline outside the directory gets a 500 and
      reaches no airline. */
  lemma UnknownAirlineFails(req: Request, parseRequest: string -> Option<TicketReservationRequest>,
                            service: TicketReservationRequest -> Long,
                            backend: ReserveRequest -> ReserveOutcome,
                            toJson: TicketReservationRequest -> Option<string>)
    requires forall t :: service(t) == ReserveFlight(t, backend, toJson).confirmation
    requires Handle(req, parseRequest, service).call.Some?
    requires parseRequest(req.body).value.airlineName !in AirlineToAddress
    ensures Handle(req, parseRequest, service).reply == Some(SendResponse(500, FailedMessage))
    ensures ReserveFlight(parseRequest(req.body).value, backend, toJson).sent == []
  {
    var t := parseRequest(req.body).value;
    assert Handle(req, parseRequest, service).call == Some(t);
    assert service(t) == -1;
  }
}

=== FILE: responses.dfy ===
/** The `sendResponse` helper that FlightSearchHandler and
    FlightReservationHandler each carry, identically: a non-blank body gets a
    trailing newline unless it has one. The byte count and the stream writes
    are I/O and not modelled. */
module Responses {
  import opened JavaText

  /** A response as written to the client. */
  datatype Reply = Reply(status: int, body: string)

  /** The body that is actually sent. */
  function NormalizeBody(body: string): (sent: string)
    ensures IsBlank(body) ==> sent == body
    ensures EndsWith(body, "\n") ==> sent == body
    ensures !IsBlank(body) && !EndsWith(body, "\n") ==> sent == body + "\n"
    ensures !IsBlank(sent) ==> EndsWith(sent, "\n")
    ensures IsBlank(sent) <==> IsBlank(body)
  {
    if !IsBlank(body) && !EndsWith(body, "\n") then
      assert !IsBlank(body + "\n") by {
        var i :| 0 <= i < |body| && !IsWhitespace(body[i]);
        assert (body + "\n")[i] == body[i];
      }
      assert EndsWith(body + "\n", "\n");
      body + "\n"
    else body
  }

  /** Sending a body that was already normalised leaves it as it is. */
  lemma NormalizeBodyIdempotent(body: string)
    ensures NormalizeBody(NormalizeBody(body)) == NormalizeBody(body)
  {
  }

  /** sendResponse(exchange, status, body). */
  function SendResponse(status: int, body: string): (r: Reply)
    ensures r.status == status
    ensures r.body == NormalizeBody(body)
    ensures r.body == body || r.body == body + "\n"
    ensures !IsBlank(r.body) ==> EndsWith(r.body, "\n")
  {
    Reply(status, NormalizeBody(body))
  }
}

=== FILE: search_handler.dfy ===
/** handlers/FlightSearchHandler.java: the checks a search request goes
    through before the airlines are asked, and the status each failing check
    produces. */
module SearchHandler {
  import opened Wrappers
  import opened JavaText
  import opened JavaCollections
  import opened Flights
  import opened Responses
  import opened HttpExchange
  import opened AirlinesService

  const OriginParameter: string := "origin"
  const DestinationParameter: string := "destination"
  const DayParameter: string := "day"
  const MonthParameter: string := "month"
  const YearParameter: string := "year"

  const RequiredParameters: seq<string> :=
    [OriginParameter, DestinationParameter, DayParameter, MonthParameter, YearParameter]

  const WrongMethodMessage: string := "Use GET method to search for flights"
  const NotAcceptableMessage: string := "Client needs to support JSON response format\n"
  const MissingParameterMessage: string := "One of the URL parameters is missing"

  /** checkMissingParameters. */
  predicate CheckMissingParameters(parameters: map<string, string>) {
    || OriginParameter !in parameters
    || DestinationParameter !in parameters
    || DayParameter !in parameters
    || MonthParameter !in parameters
    || YearParameter !in parameters
  }

  /** A parameter is missing exactly when one of the five required names is
      not a key; extra parameters never matter. */
  lemma MissingMeansSomeRequiredAbsent(parameters: map<string, string>, extra: map<string, string>)
    ensures CheckMissingParameters(parameters) <==> exists n :: n in RequiredParameters && n !in parameters
    ensures (forall n :: n in RequiredParameters ==> n in parameters) ==> !CheckMissingParameters(parameters + extra)
  {
    var r := RequiredParameters;
    assert r[0] in r && r[1] in r && r[2] in r && r[3] in r && r[4] in r;
  }

  /** The Accept check passes when no Accept header was sent, or when one of
      its lines is exactly "application/json". */
  predicate AcceptsJson(headers: seq<(string, string)>) {
    !ContainsHeader(headers, "Accept") || HeaderHasValue(headers, "Accept", "application/json")
  }

  /** The Referer handed to the service (getFirst): the value of the
      earliest Referer line when there is one, blank or not; nothing
      otherwise. */
  function RefererOf(headers: seq<(string, string)>): (r: Option<string>)
    ensures r.Some? <==> ContainsHeader(headers, "Referer")
    ensures r.Some? ==> r.value == HeaderValues(headers, "Referer")[0]
    ensures r.Some? ==> exists j :: IsFirstLine(headers, "Referer", j) && headers[j].1 == r.value
  {
    var vs := HeaderValues(headers, "Referer");
    if vs == [] then None else Some(vs[0])
  }

  /** handle: method, then Accept, then the query parameters (a repeated
      parameter name makes the collector throw), then the date (a date that
      does not parse throws); only then is the service called, once, and its
      flights sent back as JSON with status 200. */
  function Handle(req: Request, service: SearchQuery -> seq<Flight>,
                  parseDate: (string, string, string) -> Option<Date>,
                  toJson: seq<Flight> -> string): (h: Handled<SearchQuery>)
    ensures !EqualsIgnoreCase(req.requestMethod, "GET") ==>
      h == Handled(Some(SendResponse(405, WrongMethodMessage)), None)
    ensures EqualsIgnoreCase(req.requestMethod, "GET") && !AcceptsJson(req.headers) ==>
      h == Handled(Some(SendResponse(406, NotAcceptableMessage)), None)
    ensures (EqualsIgnoreCase(req.requestMethod, "GET") && AcceptsJson(req.headers)
             && !DistinctKeys(req.query)) ==> h == Handled(None, None)
    ensures (EqualsIgnoreCase(req.requestMethod, "GET") && AcceptsJson(req.headers)
             && DistinctKeys(req.query) && CheckMissingParameters(ToMap(req.query).value)) ==>
      h == Handled(Some(SendResponse(400, MissingParameterMessage)), None)
    ensures h.call.Some? <==>
      && EqualsIgnoreCase(req.requestMethod, "GET") && AcceptsJson(req.headers)
      && DistinctKeys(req.query) && !CheckMissingParameters(ToMap(req.query).value)
      && parseDate(ToMap(req.query).value[DayParameter], ToMap(req.query).value[MonthParameter],
                   ToMap(req.query).value[YearParameter]).Some?
    ensures (EqualsIgnoreCase(req.requestMethod, "GET") && AcceptsJson(req.headers)
             && DistinctKeys(req.query) && !CheckMissingParameters(ToMap(req.query).value)
             && parseDate(ToMap(req.query).value[DayParameter], ToMap(req.query).value[MonthParameter],
                          ToMap(req.query).value[YearParameter]).None?) ==>
      h == Handled(None, None)
    ensures h.call.Some? ==>
      && h.call.value.date == parseDate(ToMap(req.query).value[DayParameter], ToMap(req.query).value[MonthParameter],
                                        ToMap(req.query).value[YearParameter]).value
      && h.call.value.origin == ToMap(req.query).value[OriginParameter]
      && h.call.value.destination == ToMap(req.query).value[DestinationParameter]
      && h.call.value.referer == RefererOf(req.headers)
      && h.reply == Some(SendResponse(200, toJson(service(h.call.value))))
    ensures h.reply.Some? ==> h.reply.value.status in {405, 406, 400, 200}
    ensures h.reply.Some? && h.reply.value.status == 200 <==> h.call.Some?
  {
    if !EqualsIgnoreCase(req.requestMethod, "GET") then
      Handled(Some(SendResponse(405, WrongMethodMessage)), None)
    else if !AcceptsJson(req.headers) then
      Handled(Some(SendResponse(406, NotAcceptableMessage)), None)
    else
      match ToMap(req.query)
      case None => Handled(None, None)
      case Some(parameters) =>
        if CheckMissingParameters(parameters) then
          Handled(Some(SendResponse(400, MissingParameterMessage)), None)
        else
          match parseDate(parameters[DayParameter], parameters[MonthParameter], parameters[YearParameter])
          case None => Handled(None, None)
          case Some(date) =>
            var query := SearchQuery(parameters[OriginParameter], parameters[DestinationParameter],
                                     date, RefererOf(req.headers));
            Handled(Some(SendResponse(200, toJson(service(query)))), Some(query))
  }

  /** End to end: every airline is sent a Referer header exactly when the
      client's first Referer line is present and not blank, and it is sent
      that value; when setHeader refuses that value no airline request is
      built at all. */
  lemma RefererForwarded(req: Request, service: SearchQuery -> seq<Flight>,
                         parseDate: (string, string, string) -> Option<Date>,
                         toJson: seq<Flight> -> string, address: string, v: string)
    requires Handle(req, service, parseDate, toJson).call.Some?
    ensures var built := BuildSearchRequest(address, Handle(req, service, parseDate, toJson).call.value);
      && (built.None? <==>
            ContainsHeader(req.headers, "Referer")
            && !IsBlank(HeaderValues(req.headers, "Referer")[0])
            && !ValidHeaderValue(HeaderValues(req.headers, "Referer")[0]))
      && (built.Some? ==>
            (("Referer", v) in built.value.headers
             <==> ContainsHeader(req.headers, "Referer") && v == HeaderValues(req.headers, "Referer")[0] && !IsBlank(v)))
  {
    var q := Handle(req, service, parseDate, toJson).call.value;
    assert q.referer == RefererOf(req.headers);
  }
}

=== FILE: wrappers.dfy ===
/** Optional values, standing in for java.util.Optional and for the "value or
    exception" outcomes of the library calls the gateway makes. */
module Wrappers {

  datatype Option<+T> = None | Some(value: T)
}
